=== FILE: README.md ===
# Pandora API: single-table key encoding and read queries, in Dafny

The Pandora API keeps companies and people in one DynamoDB table, `PandoraDetails`.
A batch loader encodes every record into three keys:
- `pk` is the partition: `company` or `person`.
- `sk` is the sort key: `"<index>#<name>#"` for a company, `"<company_id>#<index>"` for a person.
- `lsi` is the sort key of the local secondary index `user-id-index`. It is set on people only:
  `"<brown eyes>#<has died>#<user id>"`, with each flag written `True` or `False`.

Two read handlers answer from these keys alone.
- `GET /companies/<id>` scans the company and person partitions by sort-key prefix.
- `GET /users/<id>` looks a person up by trying the four flag groups of the index in turn.
- `GET /users/?user1=..&user2=..` looks up two people, intersects their friend lists and
  resolves the common friends by a paginated, filtered index scan.

The model has six modules:
- `Wrappers`: the `Option` type.
- `Text`: Python's `str()` of ints and bools, ASCII `lower()`, `split(' ')[0]`, and `startswith`
  (DynamoDB's `begins_with`).
- `Table`: the store as a sequence of items. A query is a key condition, an optional
  `index IN ids` filter and an optional start key. It returns one page and a continuation key.
- `LoadData`: the loader's record encoders and its two load loops.
- `App`: the person lookup, the friend pagination, and the two handlers. Each handler is a
  total function from the table and the request to `(payload, status)`.
- `Interlock`: lemmas that tie the loader's encoding to the lookups. It also holds the inputs
  that exhibit the findings below.

The handlers take a `Reading` argument. `AsWritten` follows the code as it stands. `Intended`
applies the four alternatives listed under "## Findings". Three of them are corrections. The
fourth, a friend scan over the whole `person` partition, is an alternative reading of a
restriction the code may intend. Every other branch is shared.

## Model

| member | source | states |
|---|---|---|
| `Text.BoolStr` | scripts/load_data.py:103-106 | `str()` of a flag is `"True"` or `"False"`, has no `#`, and is `"True"` exactly for true |
| `Text.NatToString` | scripts/load_data.py:96-98 | `str()` of an id is a non-empty run of decimal digits, one digit exactly for ids below 10 |
| `Text.NatToStringInjective` | scripts/load_data.py:96-98 | two ids with the same decimal text are the same id |
| `Text.IdHashPrefixExact` | scripts/load_data.py:96-99 | `str(a) + "#" + rest` begins with `str(c) + "#"` if and only if a = c |
| `Text.IdPrefixWithoutHash` | scripts/load_data.py:81-84 | when `str(a) + "#" + rest` begins with `str(c)` and a ≠ c, `str(c)` is shorter than `str(a)` and is followed by a digit |
| `Text.Lower` | scripts/load_data.py:102 | lower-casing keeps the length and maps each of A-Z to a-z, leaving other characters alone |
| `Text.FirstToken` | scripts/load_data.py:110 | the username is a prefix of the name with no space; it is the whole name or is followed by a space |
| `Table.CandidatesMembership` | app/app.py:39-43 | a key condition selects exactly the items of the partition whose sort key exists and satisfies the condition |
| `Table.FilterRows` | app/app.py:102 | the filter never adds items, and without a filter every item is kept |
| `Table.FilterRowsMembership` | app/app.py:102 | the `index IN ids` filter keeps exactly the person items whose index is requested |
| `Table.FilterRowsOfNoIds` | app/app.py:102 | a filter on an empty id set keeps no item |
| `Table.FilterRowsConcat` | app/app.py:102 | filtering two stretches of items one after the other equals filtering them together |
| `Table.QueryPage` | app/app.py:104-106 | a query raises exactly when the store is unreachable or its filter is `index IN ()`; a reachable store rejects that filter as invalid. A page resumes at the start key, evaluates at most one page of candidates, and returns a continuation key exactly when candidates remain. With no start key and no filter, `Count` is 0 exactly when nothing matches, and `Items[0]` is the first match |
| `Table.QueryPageItems` | app/app.py:104-106 | for a query that succeeds, every item of a page is an item of the table that matches the key condition and passes the filter |
| `Table.QueryPageSplit` | app/app.py:104-106 | for a query that succeeds, what is read from a page's start on is the page's items followed by what is read from the page's end on |
| `Table.HashSortsBeforeDigit` | app/app.py:39-48 | in the store's order of sort keys, a key with `#` where another has a digit, after the same leading characters, sorts first |
| `Table.FirstCandidateIsLeast` | app/app.py:39-48 | in a partition kept in sort-key order, the first item a table query finds has the least sort key of all the items it selects |
| `LoadData.CompanyItem` | scripts/load_data.py:79-88 | a company item is in partition `company` and has no index key. Its name is under `metadata`. Its sort key begins with `str(index) + "#"` and ends with `#` |
| `LoadData.LoadCompanies` | scripts/load_data.py:77-89 | one company item per record, in file order |
| `LoadData.EncodeLsi` | scripts/load_data.py:102-107 | the index key begins with `True#` or `False#` and ends with `"#" + user_id` |
| `LoadData.DecodeEncodeLsi` | scripts/load_data.py:102-107 | decoding an encoded index key gives back both flags and the user id |
| `LoadData.EncodeDecodeLsi` | scripts/load_data.py:102-107 | any text that decodes is the encoding of what it decodes to |
| `LoadData.EncodeLsiInjective` | scripts/load_data.py:102-107 | two people share an index key only if they share both flags and the user id |
| `LoadData.PersonSkPrefix` | scripts/load_data.py:95-100 | a person's sort key begins with the employer id followed by `#` |
| `LoadData.PersonLsiDecodes` | scripts/load_data.py:101-108 | a person's index key decodes to (lower-cased eye colour is `brown`, `has_died`, `_id`) |
| `LoadData.SkVector` | scripts/load_data.py:95-100 | the `sk` column has one entry per record, and each entry is that record's sort key |
| `LoadData.LsiVector` | scripts/load_data.py:101-108 | the `lsi` column has one entry per record, and each entry is that record's index key |
| `LoadData.UsernameVector` | scripts/load_data.py:109-111 | the `username` column has one entry per record, the first token of its name |
| `LoadData.VectorOperations` | scripts/load_data.py:92-112 | one column per requested name among `sk`, `lsi` and `username`, always in that order |
| `LoadData.AllThreeColumns` | scripts/load_data.py:121-129 | asked for `sk`, `lsi` and `username`, the derivation returns exactly those three columns in that order |
| `LoadData.ColumnEntryIsPersonItem` | scripts/load_data.py:121-136 | entry i of the three columns, together with record i, makes that record's person item |
| `LoadData.TruncateToInt` | scripts/load_data.py:130 | `astype(int)` truncates toward zero: the result has the age's sign and lies within 1 of it |
| `LoadData.FriendIndices` | scripts/load_data.py:131-132 | `friends` becomes the referenced records' `index` values, same length and order |
| `LoadData.PersonItemFields` | scripts/load_data.py:120-136 | a person item has `pk = person`, its employer-prefixed sort key and its decodable index key. `_id` becomes `user_id` and `name` becomes `fullname`. The username is a space-free prefix of the name. Age is truncated and friends are reduced to indices |
| `LoadData.LoadPeople` | scripts/load_data.py:115-139 | the column-wise derivation followed by the record loop yields, for each record in order, exactly its person item |
| `App.FindUserFrom` | app/app.py:81-92 | from a given group on: raises exactly when the store does. Returns None exactly when every remaining group misses. Otherwise returns the first item of the first remaining group that hits |
| `App.FindUser` | app/app.py:77-92 | the lookup tries `True#True`, `True#False`, `False#True`, `False#False` in that order. It returns `Items[0]` of the first exact `lsi` query that finds anything, and None when all four miss |
| `App.RetrieveUser` | app/app.py:77-92 | the loop with early return computes exactly that lookup |
| `App.RetrieveCommonFriends` | app/app.py:94-113 | as written, raises exactly when the store does or the id set is empty; in the second case the failure is the invalid `IN ()` filter. With the alternative, an empty id set returns the accumulator and only a failing store raises. A result always extends the accumulator |
| `App.RetrievedFriendsAreRequested` | app/app.py:97-112 | as written and as intended, it adds only items of the scanned key condition whose index is requested |
| `App.RemainingShrinks` | app/app.py:104-112 | for a non-empty id set, the continuation key a friend page hands back starts past the position the page read from, so fewer candidates remain after it |
| `App.PageIsFirstStretch` | app/app.py:99-106 | for a non-empty id set, a friend page holds the requested items among the candidates of the stretch it reads |
| `App.UnreadAfterPage` | app/app.py:104-112 | what an unpaginated friend query would still return is the matching items in this page's stretch of candidates followed by the matching items after that stretch |
| `App.UnreadFromKey` | app/app.py:104-112 | for a non-empty id set, the matching items after this page's stretch are what a query resumed from the page's continuation key would return, and nothing when the page hands back no key |
| `App.UnreadStep` | app/app.py:104-112 | for a non-empty id set, what an unpaginated query would still return is this page's items followed by what it would return after the page's key, and that key is nearer the end |
| `App.PagesChainToOneQuery` | app/app.py:104-112 | with the pages chained, the result is the accumulator followed by what one unpaginated filtered query from the same start returns |
| `App.ResolvesAllRequestedFriends` | app/app.py:97-112 | intended resolution returns exactly the indexed person items whose index is requested |
| `App.FirstPageOnly` | app/app.py:107-113 | as written, the top-level call returns exactly the first page's items, or fails as the first page's query does |
| `App.ProjectEmployees` | app/app.py:54 | each employee entry is the projection of the scanned item at the same position |
| `App.CompanyGet` | app/app.py:27-67 | 404 with "Company being retrieved does not exist" exactly when the company scan is empty. 200 exactly when its first item has `metadata`; the payload carries the requested id, that name, the employee scan's first page and a continuation key present exactly when more employees remain. Otherwise 500 |
| `App.Arg` | app/app.py:144-147 | a parameter is present exactly when some pair carries its name, and its value is the one given with the first pair that carries the name |
| `App.ArgKeys` | app/app.py:209-212 | the listed keys are distinct, are exactly the parameter names present, and start with the first one given |
| `App.ArgKeysInFirstAppearanceOrder` | app/app.py:209-212 | the listed keys come in the order in which each first appears among the parameters |
| `App.UserDetails` | app/app.py:129-136 | the single-user view has the username and age. Fruits and vegetables are each the list, or None when empty |
| `App.FriendViews` | app/app.py:169-179 | one friend view per resolved item, in order, with the seven listed fields |
| `App.CommonFriendIds` | app/app.py:156-161 | an index is common exactly when it is in both friend lists |
| `App.CommonFriendIdsCommutes` | app/app.py:156-161 | the intersection does not depend on the order of the two users |
| `App.UserPair` | app/app.py:144-203 | 400 exactly when the store answers and either user is missing, with both existence flags in the message. 200 exactly when the store answers, both users exist and are person items, the common-friend resolution succeeds and every friend it returns is a person item (`App.ResolvedFriendsArePersons` shows this last condition always holds); the payload then carries the two profiles and the views of the resolved common friends. Otherwise 500 |
| `App.ResolvedFriendsArePersons` | app/app.py:104-113 | started with no friends, the resolution returns only person items, under either reading |
| `App.IntendedPairListsExactlyCommonFriends` | app/app.py:156-188 | intended: a 200 two-user answer lists exactly the views of indexed people who are friends of both users |
| `App.StoreFailureIsUnknownError` | app/app.py:63-66 | a store that raises makes the company handler, and the user handler once it queries, answer 500 "Unknown error occured" |
| `App.UserGet` | app/app.py:115-226 | a path id gives 200 with the user's details, 404 when the lookup misses, or 500. It never gives 400. Without an id: no parameters give 400 "No query parameters". A missing `user1` or `user2` gives 400 listing the keys present. Both present go to the two-user branch |
| `Interlock.GroupIndex` | app/app.py:73-75 | every flag pair has a position among the four groups |
| `Interlock.GroupKeyIsEncoding` | app/app.py:81-82 | group j followed by `"#" + id` is the loader's index key for the flags of group j and that id |
| `Interlock.GroupsCoverEveryKey` | app/app.py:73-75 | every index key the loader can write is one of the four lookup keys of its user id |
| `Interlock.HitIsLoadedItem` | app/app.py:81-92 | when the id is unique in the index, any hit of any group is the loaded item, in its own group |
| `Interlock.LoadedPersonHitsOwnGroup` | app/app.py:81-86 | a loaded person is among the hits of the group its own flags select |
| `Interlock.LoadedPersonIsFound` | app/app.py:77-92 | a loaded person whose id is unique in the index is what the lookup returns, whatever its flags |
| `Interlock.EmployeeScanListsEveryEmployee` | app/app.py:50-55 | a loaded person is in its employer's employee scan, as written and as intended |
| `Interlock.LoadedTableIsAsLoaded` | scripts/load_data.py:77-139 | a table holding only the loaders' items, in any order, meets the assumptions of the exact-scan lemmas: every company item is some record's item, and every person item carries the sort key derived from its employer and index |
| `Interlock.IntendedEmployeeScanIsExact` | app/app.py:50-51 | with `str(id) + "#"`, the employee scan selects exactly the people of that company |
| `Interlock.IntendedCompanyScanIsExact` | app/app.py:39-40 | with `str(id) + "#"`, the company scan selects exactly the items of companies with that index |
| `Interlock.IntendedCompanyNotFound` | app/app.py:44-46 | intended: 404 exactly when no company with that index is loaded |
| `Interlock.CompanyMatchesOwnScan` | app/app.py:39-40 | a company's item matches the company scan for its own index, as written and as intended |
| `Interlock.IntendedScanMatchesOwnId` | app/app.py:39-40 | with `str(id) + "#"`, only items of companies with that index match |
| `Interlock.SortedScanFindsOwnIdFirst` | app/app.py:39-48 | as written, in a company partition kept in sort-key order, the first item the scan for a loaded company's index finds belongs to a company with that index |
| `Interlock.FirstCompanyFound` | app/app.py:39-48 | the company scan for a loaded company's index finds something, and its first item is a company with that index: intended in any order, as written in sort-key order |
| `Interlock.LoadedCompanyIsNamed` | app/app.py:39-58 | a loaded company whose index no other record shares is answered 200 with its own name: intended in any table order, as written when the company partition is in sort-key order |
| `Interlock.PrefixCollisionAsWritten` | app/app.py:39-40 | as written, the scans for company 1 select company 10 and its people; with `"1#"` they do not |
| `Interlock.WrongCompanyReturned` | app/app.py:39-58 | with only company 10 loaded, `GET /companies/1` answers 200 with company 10's name as written, and 404 as intended |
| `Interlock.TrueFalseGroupFlags` | app/app.py:97-98 | an index key beginning with `True#False` decodes to brown eyes and not died |
| `Interlock.NarrowScanMissesFriend` | app/app.py:97-98 | as written, a common friend without brown eyes, or who has died, is never returned. As intended, such a friend always is |
| `Interlock.AsWrittenFriendsInTrueFalseGroup` | app/app.py:97-106 | as written, when the query succeeds, every returned friend is a person item whose index key begins with `True#False` and whose index is requested |
| `Interlock.TrueFalseKeyPrefix` | scripts/load_data.py:102-107 | the index key for brown eyes and not died begins with `True#False` |
| `Interlock.LoadedTrueFalseFriend` | scripts/load_data.py:102-107 | a loaded person with brown eyes who has not died falls in the scanned `True#False` group |
| `Interlock.FirstPageOnlyDropsLaterPages` | app/app.py:108-113 | take one item per page and two matching friends. As written, only the first is returned; as intended, both are |
| `Interlock.LoadedFriendsOnLaterPagesDropped` | app/app.py:108-113 | the same for two loaded people with brown eyes who have not died and are friends of both users |
| `Interlock.NoCommonFriendFailsAsWritten` | app/app.py:156-164 | two existing users with no friend in common: as written the friend query's `index IN ()` filter is rejected and the handler answers 500 |
| `Interlock.NoCommonFriendIsEmptyList` | app/app.py:156-168 | the same two users, with the empty set answered without a query: 200 with both profiles and an empty `common_friends` list |
| `Interlock.CommonFriendsScenario` | app/app.py:156-161 | friends {1, 2} and {2, 3} have exactly friend 2 in common |
| `Interlock.MissingSecondUserScenario` | app/app.py:204-214 | `?user1=X` alone answers 400, and the message is the model's rendering of the keys present: "One of the required query parameters missing. Existing keys: ['user1']" |

## Left out

- Table construction and writes are not modelled: the boto3 resource, `create_table`, `batch_writer` and `put_item`. They are I/O. The loaders return the items they would write. The store's overwrite-by-key of duplicate keys is not modelled.
- Flask routing, `MethodView`, `jsonify` and the framework's own 404 and 405 answers are transport. The `<int:company_id>` converter is taken to deliver a non-negative id.
- pandas is not modelled: `read_json`, DataFrame `append`, `astype` and `to_dict`. Frames are sequences of records. DynamoDB's `Decimal` numbers are not modelled: stored ages are integers, so `int(age)` in the handlers, which updates the user dict in place, changes nothing.
- The people file's other columns are not modelled (`guid`, `balance`, `tags` and the rest). The loader passes them through untouched.
- App.UserDetails: every person item is taken to carry `fruits` and `vegetables`, as lists. The handler reads both with `user[...]`. An item without either attribute raises KeyError, which the handler answers with 500. An item lacks them, for instance, when the people file has no such column. That 500 is not modelled.
- Logging, `argparse` and the `__main__` driver are left out.
- Store order is simplified. A query reads its items in the table's sequence order. The real store orders a partition by `sk`, or by `lsi` on the index. `Table.PartitionInSkOrder` states the `sk` order for one partition. Only `Interlock.LoadedCompanyIsNamed` and the lemmas under it assume it, for the company partition. Every other lemma holds in any order. The order of the index is not modelled.
- Continuation keys are offsets into the matching items, not the key of the last item read. The 1 MB read limit is a fixed number of items per page. Table.QueryPage hands back a continuation key exactly when candidates remain after the page. The real store may also hand one back when a page ends exactly at the read limit and nothing follows. The next query then returns no items. In that case `CompanyGet`'s `lastRecord` would be non-null where the model gives None, and the friend resolution would make one more empty query.
- Store errors are one switch: either every request raises or none does. Which request fails, and when, is not modelled.
- Table.QueryPage: the store's limit of 100 values in an `IN` list is not modelled. For two users with more than 100 common friends, the store would most likely reject the filter and the handler would answer 500; the model answers them. The rejection of an empty `IN` list is modelled from the store's validation rules.
- `lower()` is modelled on ASCII letters only.
- App.MissingParameterMessage: renders the keys present as a Python list literal, `['user1']`. The code formats `request.args.keys()`, a key view whose text is more likely `dict_keys(['user1'])`, depending on the request library's version. Neither that text nor Python's quote escaping inside the repr is modelled.
- Ages in the input file are modelled as reals truncated toward zero. A missing age (NaN) is not modelled.

## Findings

| source | as written | input that shows it | evidently intended | confidence | as-written member | corrected member |
|---|---|---|---|---|---|---|
| app/app.py:108-113 | the recursive call's result is discarded, so the top-level call returns only the first page | one item per page; two friends in the `True#False` group, both requested | the pages are chained and every matching item is returned | high, not executed | `Interlock.FirstPageOnlyDropsLaterPages` | `App.PagesChainToOneQuery` |
| app/app.py:97-98 | the friend scan reads only the `True#False` group of the index | a common friend whose eyes are not brown, or who has died | possibly a defect, since the restriction may be deliberate; the alternative reading scans the whole `person` partition of the index | low, not executed | `Interlock.NarrowScanMissesFriend` | `App.ResolvesAllRequestedFriends` |
| app/app.py:39-40 | the company and employee scans use `begins_with(str(company_id))`, a textual prefix | only company 10 loaded; `GET /companies/1` | the prefix is `str(company_id) + "#"`, so it matches exactly that id. A loaded id is still named correctly as written, given the store's sort-key order (`Interlock.LoadedCompanyIsNamed`). An id that is not loaded is not, and the employee list mixes in other ids' people | high, not executed | `Interlock.WrongCompanyReturned` | `Interlock.IntendedCompanyScanIsExact` |
| app/app.py:156-164 | with no friend in common, the friend query is sent with `Attr('index').is_in(set())`, a filter `index IN ()` that the store rejects, so the handler answers 500 "Unknown error occured" | two existing users whose friend lists are disjoint | 200 with an empty `common_friends` list, as the `friends_dframe.empty` branch expects | medium, not executed | `Interlock.NoCommonFriendFailsAsWritten` | `Interlock.NoCommonFriendIsEmptyList` |

=== FILE: app.dfy ===
/**
 * The serving side: the person lookup across the four index groups, the
 * paginated common-friend resolution, and the two read handlers
 * (`CompanyAPI.get`, `UserAPI.get`) as total functions from the table and
 * the request to `(payload, status)`.
 *
 * `Reading` selects between the code as written and an alternative in
 * four places: the company and employee scans match the textual id
 * prefix `str(id)` (so id 1 also matches "10#...") rather than
 * `str(id) + "#"`; the recursion over pages drops the recursive call's
 * result, so only the first page is returned, rather than chaining the
 * pages; an empty set of common friends is sent to the store as a filter
 * `index IN ()`, which the store rejects, rather than answered without a
 * query; and the friend scan reads only the 'True#False' group of the
 * index (brown eyes, not died) rather than the whole partition. The first
 * three are corrections; the last is an alternative reading of a
 * restriction the code may intend.
 */
module App {
  import opened Wrappers
  import opened Text
  import opened Table

  /** The code as written, or with the alternatives above applied. */
  datatype Reading = AsWritten | Intended

  // ---------------------------------------------------------------------
  // UserAPI.retrieve_user

  /** The four index-key groups, in the order the lookup tries them. */
  const LsiKeyCombinations: seq<string> := ["True#True", "True#False", "False#True", "False#False"]

  /** `Key('pk').eq('person') & Key('lsi').eq(group + '#' + user_id)` on 'user-id-index'. */
  function UserKey(userId: string, group: string): KeyCondition
  {
    KeyCondition("person", IndexSortKey, Equals(group + "#" + userId))
  }

  function UserQuery(userId: string, group: string): Query
  {
    Query(UserKey(userId, group), None, None)
  }

  /** The items whose index key is exactly the k-th group followed by the user id. */
  function GroupHits(s: Store, userId: string, k: nat): seq<Row>
    requires k < |LsiKeyCombinations|
  {
    Candidates(s.rows, UserKey(userId, LsiKeyCombinations[k]))
  }

  /** Group k is the first group from `from` on with a hit, and `row` is its first item. */
  predicate FirstHit(s: Store, userId: string, from: nat, k: nat, row: Row)
  {
    && from <= k < |LsiKeyCombinations|
    && GroupHits(s, userId, k) != []
    && row == GroupHits(s, userId, k)[0]
    && forall j :: from <= j < k ==> GroupHits(s, userId, j) == []
  }

  /** A group without hits changes neither whether all groups miss nor which group hits first. */
  lemma EmptyGroupSkipped(s: Store, userId: string, from: nat, next: nat, later: Result<Option<Row>>)
    requires next == from + 1 <= |LsiKeyCombinations| && GroupHits(s, userId, from) == []
    ensures (forall j :: from <= j < |LsiKeyCombinations| ==> GroupHits(s, userId, j) == [])
        <==> (forall j :: next <= j < |LsiKeyCombinations| ==> GroupHits(s, userId, j) == [])
    ensures later.Ok? && later.value.Some? && (exists k :: FirstHit(s, userId, next, k, later.value.value)) ==>
      exists k :: FirstHit(s, userId, from, k, later.value.value)
  {
    if later.Ok? && later.value.Some? && exists k :: FirstHit(s, userId, next, k, later.value.value) {
      var k :| FirstHit(s, userId, next, k, later.value.value);
      assert FirstHit(s, userId, from, k, later.value.value);
    }
  }

  /** The lookup from the group at position `from` on. */
  function FindUserFrom(s: Store, userId: string, from: nat): (r: Result<Option<Row>>)
    requires from <= |LsiKeyCombinations|
    ensures from < |LsiKeyCombinations| ==> (r.Raised? <==> !s.reachable)
    ensures r == Ok(None) <==>
      (from == |LsiKeyCombinations| || s.reachable) &&
      forall j :: from <= j < |LsiKeyCombinations| ==> GroupHits(s, userId, j) == []
    ensures r.Ok? && r.value.Some? ==> exists k :: FirstHit(s, userId, from, k, r.value.value)
    decreases |LsiKeyCombinations| - from
  {
    if from == |LsiKeyCombinations| then Ok(None)
    else
      var q := UserQuery(userId, LsiKeyCombinations[from]);
      assert q.key == UserKey(userId, LsiKeyCombinations[from]) && q.indexIn.None? && q.exclusiveStartKey.None?;
      match QueryPage(s, q)
      case Raised(f) => Raised(f)
      case Ok(user) =>
        if |user.items| == 0 then
          var later := FindUserFrom(s, userId, from + 1);
          EmptyGroupSkipped(s, userId, from, from + 1, later);
          later
        else
          assert GroupHits(s, userId, from) != [];
          assert FirstHit(s, userId, from, from, user.items[0]);
          Ok(Some(user.items[0]))
  }

  /**
   * The person lookup: the first item of the first group, in the order
   * True#True, True#False, False#True, False#False, whose exact query
   * finds anything; None when all four miss; an exception when the store
   * raises.
   */
  function FindUser(s: Store, userId: string): (r: Result<Option<Row>>)
    ensures r.Raised? <==> !s.reachable
    ensures r == Ok(None) <==>
      s.reachable && forall j :: 0 <= j < |LsiKeyCombinations| ==> GroupHits(s, userId, j) == []
    ensures r.Ok? && r.value.Some? ==> exists k :: FirstHit(s, userId, 0, k, r.value.value)
  {
    FindUserFrom(s, userId, 0)
  }

  /** `retrieve_user`: one exact index query per group, returning at the first hit. */
  method RetrieveUser(s: Store, userId: string) returns (user: Result<Option<Row>>)
    ensures user == FindUser(s, userId)
  {
    for i := 0 to |LsiKeyCombinations|
      invariant FindUserFrom(s, userId, i) == FindUser(s, userId)
    {
      var response := QueryPage(s, UserQuery(userId, LsiKeyCombinations[i]));
      if response.Raised? {
        return Raised(response.failure);
      }
      if |response.value.items| == 0 {
        continue;
      }
      return Ok(Some(response.value.items[0]));
    }
    return Ok(None);
  }

  // ---------------------------------------------------------------------
  // UserAPI.retrieve_common_friends

  /** As written: `begins_with('True#False')`; the alternative reads the whole 'person' partition of the index. */
  function FriendKey(rd: Reading): KeyCondition
  {
    if rd == AsWritten then KeyCondition("person", IndexSortKey, BeginsWith("True#False"))
    else KeyCondition("person", IndexSortKey, AnyValue)
  }

  function FriendQuery(ids: set<nat>, lastRecord: Option<Token>, rd: Reading): Query
  {
    Query(FriendKey(rd), Some(ids), lastRecord)
  }

  /** How many candidates of the friend scan are still to be read after `lastRecord`. */
  function Remaining(s: Store, ids: set<nat>, lastRecord: Option<Token>, rd: Reading): nat
  {
    var n := |Candidates(s.rows, FriendKey(rd))|;
    n - StartOffset(FriendQuery(ids, lastRecord, rd), n)
  }

  /**
   * `retrieve_common_friends(user_ids, friends, last_record)`: query one
   * page, append its items to the accumulator, and recurse while the store
   * hands back a continuation key. As written, the recursive call's value
   * is discarded (only an exception it raises escapes), so the caller gets
   * the accumulator as it was after this page. As written, an empty id set
   * is still sent as the filter `index IN ()`, which the store rejects;
   * intended, it needs no query and finds nothing.
   */
  function RetrieveCommonFriends(s: Store, ids: set<nat>, friends: seq<Row>, lastRecord: Option<Token>, rd: Reading)
    : (r: Result<seq<Row>>)
    ensures r.Raised? <==> if ids == {} then rd == AsWritten else !s.reachable
    ensures r.Raised? && s.reachable ==> r.failure == InvalidFilter
    ensures r.Ok? ==> friends <= r.value
    decreases Remaining(s, ids, lastRecord, rd)
  {
    if ids == {} && rd == Intended then Ok(friends)
    else
    match QueryPage(s, FriendQuery(ids, lastRecord, rd))
    case Raised(f) => Raised(f)
    case Ok(users) =>
      var accumulated := friends + users.items;
      if users.lastEvaluatedKey.Some? then
        var rest := RetrieveCommonFriends(s, ids, accumulated, users.lastEvaluatedKey, rd);
        if rd == AsWritten then (if rest.Raised? then rest else Ok(accumulated))
        else rest
      else Ok(accumulated)
  }

  /**
   * Whatever the reading, the result holds only the accumulator and person
   * items of the scanned group whose index was requested.
   */
  lemma {:induction false} RetrievedFriendsAreRequested(s: Store, ids: set<nat>, friends: seq<Row>, lastRecord: Option<Token>, rd: Reading)
    ensures var r := RetrieveCommonFriends(s, ids, friends, lastRecord, rd);
      r.Ok? ==> forall row :: row in r.value ==>
        row in friends || (row in s.rows && KeyMatches(row, FriendKey(rd)) && PassesFilter(row, Some(ids)))
    decreases Remaining(s, ids, lastRecord, rd)
  {
    if ids == {} || !s.reachable {
      return;
    }
    var q := FriendQuery(ids, lastRecord, rd);
    var users := QueryPage(s, q).value;
    var accumulated := friends + users.items;
    QueryPageItems(s, q);
    if users.lastEvaluatedKey.Some? {
      var c := Candidates(s.rows, FriendKey(rd));
      assert StartOffset(FriendQuery(ids, users.lastEvaluatedKey, rd), |c|) == users.lastEvaluatedKey.value.offset;
      RetrievedFriendsAreRequested(s, ids, accumulated, users.lastEvaluatedKey, rd);
    }
  }

  /**
   * Started with no friends, the resolution returns only person items,
   * since the `index IN` filter passes nothing else.
   */
  lemma ResolvedFriendsArePersons(s: Store, ids: set<nat>, rd: Reading)
    ensures var r := RetrieveCommonFriends(s, ids, [], None, rd);
      r.Ok? ==> forall row :: row in r.value ==> row.attributes.PersonAttributes?
  {
    RetrievedFriendsAreRequested(s, ids, [], None, rd);
  }

  /** One step of the intended resolution: the page's items are appended and the rest is read from its key. */
  lemma IntendedStep(s: Store, ids: set<nat>, friends: seq<Row>, lastRecord: Option<Token>)
    requires s.reachable && ids != {}
    ensures var page := QueryPage(s, FriendQuery(ids, lastRecord, Intended)).value;
      RetrieveCommonFriends(s, ids, friends, lastRecord, Intended)
        == if page.lastEvaluatedKey.Some?
           then RetrieveCommonFriends(s, ids, friends + page.items, page.lastEvaluatedKey, Intended)
           else Ok(friends + page.items)
  {
  }

  /** What one unpaginated intended query would still return after `lastRecord`. */
  function Unread(s: Store, ids: set<nat>, lastRecord: Option<Token>): seq<Row>
  {
    var c := Candidates(s.rows, FriendKey(Intended));
    FilterRows(c[StartOffset(FriendQuery(ids, lastRecord, Intended), |c|)..], Some(ids))
  }

  /** The continuation key of a friend page lies past the start it read from. */
  lemma RemainingShrinks(s: Store, ids: set<nat>, lastRecord: Option<Token>)
    requires s.reachable && ids != {}
    ensures var page := QueryPage(s, FriendQuery(ids, lastRecord, Intended)).value;
      page.lastEvaluatedKey.Some? ==>
        Remaining(s, ids, page.lastEvaluatedKey, Intended) < Remaining(s, ids, lastRecord, Intended)
  {
  }

  /** A friend page holds the requested items among the candidates of its stretch. */
  lemma PageIsFirstStretch(s: Store, ids: set<nat>, lastRecord: Option<Token>)
    requires s.reachable && ids != {}
    ensures var c := Candidates(s.rows, FriendKey(Intended));
      var q := FriendQuery(ids, lastRecord, Intended);
      var lo := StartOffset(q, |c|);
      QueryPage(s, q).value.items == FilterRows(c[lo..Min(lo + s.pageSize, |c|)], Some(ids))
  {
    assert FriendQuery(ids, lastRecord, Intended).key == FriendKey(Intended);
  }

  /** What is unread is the filtered candidates of this page followed by the filtered candidates after it. */
  lemma UnreadAfterPage(s: Store, ids: set<nat>, lastRecord: Option<Token>)
    ensures var c := Candidates(s.rows, FriendKey(Intended));
      var lo := StartOffset(FriendQuery(ids, lastRecord, Intended), |c|);
      var hi := Min(lo + s.pageSize, |c|);
      Unread(s, ids, lastRecord) == FilterRows(c[lo..hi], Some(ids)) + FilterRows(c[hi..], Some(ids))
  {
    var c := Candidates(s.rows, FriendKey(Intended));
    var lo := StartOffset(FriendQuery(ids, lastRecord, Intended), |c|);
    var hi := Min(lo + s.pageSize, |c|);
    FilterRowsSplitAt(c, lo, hi, Some(ids));
    assert Unread(s, ids, lastRecord) == FilterRows(c[lo..], Some(ids));
  }

  /** The filtered candidates after a page are what is unread after its key, or nothing when it has none. */
  lemma UnreadFromKey(s: Store, ids: set<nat>, lastRecord: Option<Token>)
    requires s.reachable && ids != {}
    ensures var c := Candidates(s.rows, FriendKey(Intended));
      var q := FriendQuery(ids, lastRecord, Intended);
      var page := QueryPage(s, q).value;
      FilterRows(c[Min(StartOffset(q, |c|) + s.pageSize, |c|)..], Some(ids))
        == if page.lastEvaluatedKey.Some? then Unread(s, ids, page.lastEvaluatedKey) else []
  {
    var c := Candidates(s.rows, FriendKey(Intended));
    var q := FriendQuery(ids, lastRecord, Intended);
    var hi := Min(StartOffset(q, |c|) + s.pageSize, |c|);
    assert q.key == FriendKey(Intended) && q.indexIn == Some(ids) != Some({});
    if hi < |c| {
      assert StartOffset(FriendQuery(ids, Some(Token(hi)), Intended), |c|) == hi;
    } else {
      assert c[hi..] == [];
    }
  }

  /** What is unread is this page's items followed by what is unread after its key, which is nearer the end. */
  lemma UnreadStep(s: Store, ids: set<nat>, lastRecord: Option<Token>)
    requires s.reachable && ids != {}
    ensures var page := QueryPage(s, FriendQuery(ids, lastRecord, Intended)).value;
      && Unread(s, ids, lastRecord)
           == page.items + (if page.lastEvaluatedKey.Some? then Unread(s, ids, page.lastEvaluatedKey) else [])
      && (page.lastEvaluatedKey.Some? ==>
            Remaining(s, ids, page.lastEvaluatedKey, Intended) < Remaining(s, ids, lastRecord, Intended))
  {
    PageIsFirstStretch(s, ids, lastRecord);
    UnreadAfterPage(s, ids, lastRecord);
    UnreadFromKey(s, ids, lastRecord);
    RemainingShrinks(s, ids, lastRecord);
  }

  /**
   * With the pages chained, the accumulated result is what one
   * unpaginated query from the same start would return.
   */
  lemma {:induction false} PagesChainToOneQuery(s: Store, ids: set<nat>, friends: seq<Row>, lastRecord: Option<Token>)
    requires s.reachable
    ensures RetrieveCommonFriends(s, ids, friends, lastRecord, Intended) == Ok(friends + Unread(s, ids, lastRecord))
    decreases Remaining(s, ids, lastRecord, Intended)
  {
    if ids == {} {
      var c := Candidates(s.rows, FriendKey(Intended));
      FilterRowsOfNoIds(c[StartOffset(FriendQuery(ids, lastRecord, Intended), |c|)..]);
      assert friends + [] == friends;
      return;
    }
    var page := QueryPage(s, FriendQuery(ids, lastRecord, Intended)).value;
    assert friends + (page.items + Unread(s, ids, page.lastEvaluatedKey))
        == friends + page.items + Unread(s, ids, page.lastEvaluatedKey);
    IntendedStep(s, ids, friends, lastRecord);
    UnreadStep(s, ids, lastRecord);
    if page.lastEvaluatedKey.Some? {
      PagesChainToOneQuery(s, ids, friends + page.items, page.lastEvaluatedKey);
    } else {
      assert page.items + [] == page.items;
    }
  }

  /**
   * Intended resolution: exactly the person items of the index whose
   * internal index is one of the requested ids, in table order.
   */
  lemma ResolvesAllRequestedFriends(s: Store, ids: set<nat>)
    requires s.reachable
    ensures var r := RetrieveCommonFriends(s, ids, [], None, Intended);
      && r == Ok(FilterRows(Candidates(s.rows, FriendKey(Intended)), Some(ids)))
      && forall row :: row in r.value <==>
           row in s.rows && row.pk == "person" && row.lsi.Some?
           && row.attributes.PersonAttributes? && row.attributes.person.index in ids
  {
    var c := Candidates(s.rows, FriendKey(Intended));
    PagesChainToOneQuery(s, ids, [], None);
    assert c[0..] == c && [] + FilterRows(c, Some(ids)) == FilterRows(c, Some(ids));
    assert FriendKey(Intended) == KeyCondition("person", IndexSortKey, AnyValue);
    CandidatesMembership(s.rows, FriendKey(Intended));
    FilterRowsMembership(c, Some(ids));
  }

  /** As written, the top-level call returns the first page's items and nothing more, or the first query's exception. */
  lemma FirstPageOnly(s: Store, ids: set<nat>)
    ensures var page := QueryPage(s, FriendQuery(ids, None, AsWritten));
      RetrieveCommonFriends(s, ids, [], None, AsWritten)
        == if page.Raised? then Raised(page.failure) else Ok(page.value.items)
  {
    var page := QueryPage(s, FriendQuery(ids, None, AsWritten));
    if page.Ok? {
      assert [] + page.value.items == page.value.items;
    }
  }

  // ---------------------------------------------------------------------
  // Response shapes

  /** `ProjectionExpression='user_id, fullname, email, phone'`; an item without them projects to nothing. */
  datatype EmployeeView = EmployeeView(userId: string, fullname: string, email: string, phone: string) | EmptyView

  datatype Profile = Profile(fullname: string, age: int, address: string, phone: string)

  datatype FriendView = FriendView(
    userId: string, fullname: string, age: int, address: string, phone: string, eyeColor: string, hasDied: bool)

  datatype Payload =
    | Error(message: string)
    | CompanyView(companyId: nat, companyName: string, employees: seq<EmployeeView>, lastRecord: Option<Token>)
    | UserView(username: string, age: int, fruits: Option<seq<string>>, vegetables: Option<seq<string>>)
    | PairView(user1: Profile, user2: Profile, common_friends: seq<FriendView>)

  /** `(jsonify(payload), status_code)`. */
  datatype Response = Response(payload: Payload, status: nat)

  const UnknownError: Response := Response(Error("Unknown error occured"), 500)

  function ProjectEmployee(row: Row): EmployeeView
  {
    match row.attributes
    case PersonAttributes(p) => EmployeeView(p.userId, p.fullname, p.email, p.phone)
    case Metadata(_) => EmptyView
  }

  function ProjectEmployees(rows: seq<Row>): (v: seq<EmployeeView>)
    ensures |v| == |rows|
    ensures forall i :: 0 <= i < |rows| ==> v[i] == ProjectEmployee(rows[i])
  {
    seq(|rows|, i requires 0 <= i < |rows| => ProjectEmployee(rows[i]))
  }

  // ---------------------------------------------------------------------
  // CompanyAPI.get

  /** The sort-key prefix of the company and employee scans. */
  function IdPrefix(companyId: nat, rd: Reading): string
  {
    if rd == AsWritten then NatToString(companyId) else NatToString(companyId) + "#"
  }

  function CompanyKey(companyId: nat, rd: Reading): KeyCondition
  {
    KeyCondition("company", TableSortKey, BeginsWith(IdPrefix(companyId, rd)))
  }

  function EmployeeKey(companyId: nat, rd: Reading): KeyCondition
  {
    KeyCondition("person", TableSortKey, BeginsWith(IdPrefix(companyId, rd)))
  }

  const CompanyNotFound: string := "Company being retrieved does not exist"

  /**
   * `GET /companies/<company_id>`: 404 when the company scan finds
   * nothing; otherwise 200 with the requested id, the name of the first
   * item found, the first page of the employee scan and its continuation
   * key; 500 when the store raises or the first item has no `metadata`.
   */
  function CompanyGet(s: Store, companyId: nat, rd: Reading): (r: Response)
    ensures r.status == 200 || r.status == 404 || r == UnknownError
    ensures r.status == 404 <==> s.reachable && Candidates(s.rows, CompanyKey(companyId, rd)) == []
    ensures r.status == 404 ==> r.payload == Error(CompanyNotFound)
    ensures var c := Candidates(s.rows, CompanyKey(companyId, rd));
      r.status == 200 <==> s.reachable && c != [] && c[0].attributes.Metadata?
    ensures r.status == 200 ==>
      var c := Candidates(s.rows, CompanyKey(companyId, rd));
      var e := Candidates(s.rows, EmployeeKey(companyId, rd));
      && r.payload.CompanyView?
      && r.payload.companyId == companyId
      && r.payload.companyName == c[0].attributes.name
      && |r.payload.employees| == Min(s.pageSize, |e|)
      && (forall i :: 0 <= i < |r.payload.employees| ==> r.payload.employees[i] == ProjectEmployee(e[i]))
      && (r.payload.lastRecord.Some? <==> s.pageSize < |e|)
  {
    match QueryPage(s, Query(CompanyKey(companyId, rd), None, None))
    case Raised(_) => UnknownError
    case Ok(company) =>
      if |company.items| == 0 then Response(Error(CompanyNotFound), 404)
      else
        var first := company.items[0];
        match QueryPage(s, Query(EmployeeKey(companyId, rd), None, None))
        case Raised(_) => UnknownError
        case Ok(users) =>
          if !first.attributes.Metadata? then UnknownError // KeyError: 'metadata'
          else Response(CompanyView(companyId, first.attributes.name, ProjectEmployees(users.items), users.lastEvaluatedKey), 200)
  }

  // ---------------------------------------------------------------------
  // UserAPI.get

  /** One query-string parameter. */
  datatype Param = Param(key: string, value: string)

  /** `request.args[key]`: the first value given for the key, if any. */
  function Arg(args: seq<Param>, key: string): (v: Option<string>)
    ensures v.Some? <==> exists i :: 0 <= i < |args| && args[i].key == key
    ensures v.Some? ==> exists i :: 0 <= i < |args| && args[i].key == key && v.value == args[i].value &&
                                    forall j :: 0 <= j < i ==> args[j].key != key
  {
    if args == [] then None
    else if args[0].key == key then Some(args[0].value)
    else Arg(args[1..], key)
  }

  predicate Distinct(keys: seq<string>)
  {
    forall i, j :: 0 <= i < j < |keys| ==> keys[i] != keys[j]
  }

  lemma DistinctCons(key: string, keys: seq<string>)
    requires key !in keys && Distinct(keys)
    ensures Distinct([key] + keys)
  {
    var s := [key] + keys;
    forall i, j | 0 <= i < j < |s|
      ensures s[i] != s[j]
    {
      assert s[j] == keys[j - 1];
      if 0 < i {
        assert s[i] == keys[i - 1];
      }
    }
  }

  /** `keys` with every occurrence of `key` removed. */
  function Without(keys: seq<string>, key: string): (r: seq<string>)
    ensures forall k :: k in r <==> k in keys && k != key
    ensures Distinct(keys) ==> Distinct(r)
  {
    if keys == [] then []
    else
      var rest := Without(keys[1..], key);
      assert Distinct(keys) ==> Distinct(keys[1..]) && keys[0] !in rest by {
        if Distinct(keys) {
          forall i, j | 0 <= i < j < |keys[1..]|
            ensures keys[1..][i] != keys[1..][j]
          {
            assert keys[1..][i] == keys[i + 1] && keys[1..][j] == keys[j + 1];
          }
          assert keys[0] !in keys[1..];
        }
      }
      if keys[0] == key then rest
      else
        assert Distinct(keys) ==> Distinct([keys[0]] + rest) by {
          if Distinct(keys) {
            DistinctCons(keys[0], rest);
          }
        }
        [keys[0]] + rest
  }

  /** The position of the first parameter named `key`, or `|args|` when there is none. */
  function FirstIndex(args: seq<Param>, key: string): (n: nat)
    ensures n <= |args|
    ensures forall j :: 0 <= j < n ==> args[j].key != key
    ensures n < |args| ==> args[n].key == key
  {
    if args == [] || args[0].key == key then 0 else 1 + FirstIndex(args[1..], key)
  }

  /** Every name in `keys` first appears in `args` before the names after it. */
  predicate InFirstAppearanceOrder(keys: seq<string>, args: seq<Param>)
  {
    forall i, j :: 0 <= i < j < |keys| ==> FirstIndex(args, keys[i]) < FirstIndex(args, keys[j])
  }

  /** A name that first appears before all of `rest` can be put in front of it. */
  lemma OrderedCons(key: string, rest: seq<string>, args: seq<Param>)
    requires InFirstAppearanceOrder(rest, args)
    requires forall k :: k in rest ==> FirstIndex(args, key) < FirstIndex(args, k)
    ensures InFirstAppearanceOrder([key] + rest, args)
  {
    var r := [key] + rest;
    assert r[0] == key && r[1..] == rest;
    forall i, j | 0 <= i < j < |r|
      ensures FirstIndex(args, r[i]) < FirstIndex(args, r[j])
    {
      assert r[j] == r[1..][j - 1] && r[j] in rest;
      if 0 < i {
        assert r[i] == r[1..][i - 1];
      }
    }
  }

  /** In an ordered list, the tail is ordered and the head first appears before all of it. */
  lemma OrderedTail(keys: seq<string>, args: seq<Param>)
    requires keys != [] && InFirstAppearanceOrder(keys, args)
    ensures InFirstAppearanceOrder(keys[1..], args)
    ensures forall k :: k in keys[1..] ==> FirstIndex(args, keys[0]) < FirstIndex(args, k)
  {
    var tail := keys[1..];
    forall i, j | 0 <= i < j < |tail|
      ensures FirstIndex(args, tail[i]) < FirstIndex(args, tail[j])
    {
      assert tail[i] == keys[i + 1] && tail[j] == keys[j + 1];
    }
    forall k | k in tail
      ensures FirstIndex(args, keys[0]) < FirstIndex(args, k)
    {
      var m :| 0 <= m < |tail| && tail[m] == k;
      assert keys[m + 1] == k;
    }
  }

  /** Removing a name keeps the others in their order. */
  lemma {:induction false} WithoutKeepsOrder(keys: seq<string>, key: string, args: seq<Param>)
    requires InFirstAppearanceOrder(keys, args)
    ensures InFirstAppearanceOrder(Without(keys, key), args)
  {
    if keys != [] {
      OrderedTail(keys, args);
      WithoutKeepsOrder(keys[1..], key, args);
      if keys[0] != key {
        OrderedCons(keys[0], Without(keys[1..], key), args);
      }
    }
  }

  /** `request.args.keys()`: each parameter name once, in order of first appearance. */
  function ArgKeys(args: seq<Param>): (keys: seq<string>)
    ensures Distinct(keys)
    ensures forall k :: k in keys <==> Arg(args, k).Some?
    ensures args != [] ==> keys != [] && keys[0] == args[0].key
  {
    if args == [] then []
    else
      var rest := Without(ArgKeys(args[1..]), args[0].key);
      DistinctCons(args[0].key, rest);
      [args[0].key] + rest
  }

  /** Names of the later parameters, other than the first one's, keep their order behind it. */
  lemma ConsKeepsOrder(args: seq<Param>, rest: seq<string>)
    requires args != [] && args[0].key !in rest
    requires InFirstAppearanceOrder(rest, args[1..])
    ensures InFirstAppearanceOrder([args[0].key] + rest, args)
  {
    forall k | k in rest
      ensures FirstIndex(args, k) == 1 + FirstIndex(args[1..], k)
    {
    }
    forall i, j | 0 <= i < j < |rest|
      ensures FirstIndex(args, rest[i]) < FirstIndex(args, rest[j])
    {
      assert rest[i] in rest && rest[j] in rest;
    }
    OrderedCons(args[0].key, rest, args);
  }

  /** The listed names come in the order in which each first appears among the parameters. */
  lemma {:induction false} ArgKeysInFirstAppearanceOrder(args: seq<Param>)
    ensures InFirstAppearanceOrder(ArgKeys(args), args)
  {
    if args != [] {
      var later := ArgKeys(args[1..]);
      ArgKeysInFirstAppearanceOrder(args[1..]);
      WithoutKeepsOrder(later, args[0].key, args[1..]);
      ConsKeepsOrder(args, Without(later, args[0].key));
    }
  }

  function QuotedList(keys: seq<string>): string
  {
    if keys == [] then ""
    else if |keys| == 1 then "'" + keys[0] + "'"
    else "'" + keys[0] + "', " + QuotedList(keys[1..])
  }

  /** The parameter names as a Python list literal. */
  function KeysRepr(keys: seq<string>): string
  {
    "[" + QuotedList(keys) + "]"
  }

  function MissingParameterMessage(args: seq<Param>): string
  {
    "One of the required query parameters missing. Existing keys: " + KeysRepr(ArgKeys(args))
  }

  function NotExistingMessage(user1: string, exists1: bool, user2: string, exists2: bool): string
  {
    "User(s) requested are not existing:Existing User(" + user1 + ")?: " + BoolStr(exists1)
    + ", Existing User(" + user2 + ")?: " + BoolStr(exists2)
  }

  /** The single-user view: username, age, and fruits / vegetables or None when empty. */
  function UserDetails(p: Person): (v: Payload)
    ensures v.UserView? && v.username == p.username && v.age == p.age
    ensures v.fruits == (if p.fruits == [] then None else Some(p.fruits))
    ensures v.vegetables == (if p.vegetables == [] then None else Some(p.vegetables))
  {
    UserView(p.username, p.age,
      if |p.fruits| > 0 then Some(p.fruits) else None,
      if |p.vegetables| > 0 then Some(p.vegetables) else None)
  }

  function ProfileOf(p: Person): Profile
  {
    Profile(p.fullname, p.age, p.address, p.phone)
  }

  function FriendViewOf(p: Person): FriendView
  {
    FriendView(p.userId, p.fullname, p.age, p.address, p.phone, p.eyeColor, p.hasDied)
  }

  function FriendViews(rows: seq<Row>): (v: seq<FriendView>)
    requires forall row :: row in rows ==> row.attributes.PersonAttributes?
    ensures |v| == |rows|
    ensures forall i :: 0 <= i < |rows| ==> v[i] == FriendViewOf(rows[i].attributes.person)
  {
    seq(|rows|, i requires 0 <= i < |rows| => FriendViewOf(rows[i].attributes.person))
  }

  /** `set(user1['friends']).intersection(set(user2['friends']))`. */
  function CommonFriendIds(friends1: seq<nat>, friends2: seq<nat>): (common: set<nat>)
    ensures forall x :: x in common <==> x in friends1 && x in friends2
  {
    (set x | x in friends1) * (set x | x in friends2)
  }

  lemma CommonFriendIdsCommutes(friends1: seq<nat>, friends2: seq<nat>)
    ensures CommonFriendIds(friends1, friends2) == CommonFriendIds(friends2, friends1)
  {
  }

  /** The two-user branch: both lookups, the existence check, and the common friends. */
  function UserPair(s: Store, id1: string, id2: string, rd: Reading): (r: Response)
    ensures r.status == 200 || r.status == 400 || r == UnknownError
    ensures r.status == 400 <==> s.reachable && (FindUser(s, id1) == Ok(None) || FindUser(s, id2) == Ok(None))
    ensures r.status == 400 ==>
      r.payload == Error(NotExistingMessage(id1, FindUser(s, id1) != Ok(None), id2, FindUser(s, id2) != Ok(None)))
    ensures r.status == 200 <==>
      && s.reachable
      && FindUser(s, id1).Ok? && FindUser(s, id1).value.Some?
      && FindUser(s, id2).Ok? && FindUser(s, id2).value.Some?
      && FindUser(s, id1).value.value.attributes.PersonAttributes?
      && FindUser(s, id2).value.value.attributes.PersonAttributes?
      && var found := RetrieveCommonFriends(s, CommonFriendIds(FindUser(s, id1).value.value.attributes.person.friends,
                                                               FindUser(s, id2).value.value.attributes.person.friends), [], None, rd);
         found.Ok? && forall row :: row in found.value ==> row.attributes.PersonAttributes?
    ensures r.status == 200 ==>
      && FindUser(s, id1).Ok? && FindUser(s, id1).value.Some?
      && FindUser(s, id2).Ok? && FindUser(s, id2).value.Some?
      && var u1 := FindUser(s, id1).value.value;
         var u2 := FindUser(s, id2).value.value;
      && u1.attributes.PersonAttributes? && u2.attributes.PersonAttributes?
      && r.payload.PairView?
      && r.payload.user1 == ProfileOf(u1.attributes.person)
      && r.payload.user2 == ProfileOf(u2.attributes.person)
      && var common := CommonFriendIds(u1.attributes.person.friends, u2.attributes.person.friends);
      && var found := RetrieveCommonFriends(s, common, [], None, rd);
      && found.Ok?
      && (forall row :: row in found.value ==> row.attributes.PersonAttributes?)
      && r.payload.common_friends == FriendViews(found.value)
  {
    match (FindUser(s, id1), FindUser(s, id2))
    case (Raised(_), _) => UnknownError
    case (_, Raised(_)) => UnknownError
    case (Ok(user1), Ok(user2)) =>
      if user1.None? || user2.None? then
        Response(Error(NotExistingMessage(id1, user1.Some?, id2, user2.Some?)), 400)
      else if !user1.value.attributes.PersonAttributes? || !user2.value.attributes.PersonAttributes? then
        UnknownError // KeyError: 'age'
      else
        var p1, p2 := user1.value.attributes.person, user2.value.attributes.person;
        var common := CommonFriendIds(p1.friends, p2.friends);
        match RetrieveCommonFriends(s, common, [], None, rd)
        case Raised(_) => UnknownError
        case Ok(friends) =>
          if friends == [] then Response(PairView(ProfileOf(p1), ProfileOf(p2), []), 200)
          else if forall row :: row in friends ==> row.attributes.PersonAttributes? then
            Response(PairView(ProfileOf(p1), ProfileOf(p2), FriendViews(friends)), 200)
          else UnknownError // KeyError on a friend; never reached, see ResolvedFriendsArePersons
  }

  /** A person item of the index whose internal index is in both friend lists. */
  predicate IsCommonFriendRow(row: Row, friends1: seq<nat>, friends2: seq<nat>)
  {
    && row.pk == "person" && row.lsi.Some? && row.attributes.PersonAttributes?
    && row.attributes.person.index in friends1 && row.attributes.person.index in friends2
  }

  lemma FriendViewsMembership(rows: seq<Row>, v: FriendView)
    requires forall row :: row in rows ==> row.attributes.PersonAttributes?
    ensures v in FriendViews(rows) <==> exists row :: row in rows && v == FriendViewOf(row.attributes.person)
  {
    var views := FriendViews(rows);
    if v in views {
      var i :| 0 <= i < |views| && views[i] == v;
      assert rows[i] in rows;
    }
    if exists row :: row in rows && v == FriendViewOf(row.attributes.person) {
      var row :| row in rows && v == FriendViewOf(row.attributes.person);
      var i :| 0 <= i < |rows| && rows[i] == row;
      assert views[i] == v;
    }
  }

  /**
   * Intended: a successful two-user answer lists exactly the views of the
   * person items that are friends of both users.
   */
  lemma IntendedPairListsExactlyCommonFriends(s: Store, id1: string, id2: string)
    requires UserPair(s, id1, id2, Intended).status == 200
    ensures var r := UserPair(s, id1, id2, Intended).payload;
      var f1 := FindUser(s, id1).value.value.attributes.person.friends;
      var f2 := FindUser(s, id2).value.value.attributes.person.friends;
      forall v :: v in r.common_friends <==>
        exists row :: row in s.rows && IsCommonFriendRow(row, f1, f2) && v == FriendViewOf(row.attributes.person)
  {
    var r := UserPair(s, id1, id2, Intended).payload;
    var f1 := FindUser(s, id1).value.value.attributes.person.friends;
    var f2 := FindUser(s, id2).value.value.attributes.person.friends;
    var common := CommonFriendIds(f1, f2);
    var found := RetrieveCommonFriends(s, common, [], None, Intended).value;
    assert r.common_friends == FriendViews(found);
    ResolvesAllRequestedFriends(s, common);
    assert forall row :: row in found <==> row in s.rows && IsCommonFriendRow(row, f1, f2);
    forall v
      ensures v in r.common_friends <==>
        exists row :: row in s.rows && IsCommonFriendRow(row, f1, f2) && v == FriendViewOf(row.attributes.person)
    {
      FriendViewsMembership(found, v);
    }
  }

  /** Whatever the store raises, the handlers answer 500 with the generic message. */
  lemma StoreFailureIsUnknownError(s: Store, companyId: nat, userId: Option<string>, args: seq<Param>, rd: Reading)
    requires !s.reachable
    ensures CompanyGet(s, companyId, rd) == UnknownError
    ensures IdGiven(userId) || (Arg(args, "user1").Some? && Arg(args, "user2").Some?) ==>
      UserGet(s, userId, args, rd) == UnknownError
  {
  }

  /** `if user_id:` — a path id that is present and not empty. */
  predicate IdGiven(userId: Option<string>)
  {
    userId.Some? && userId.value != ""
  }

  /**
   * `GET /users/<user_id>` and `GET /users/?user1=..&user2=..`: a path id
   * gives 200 with the user's details or 404; without one, no parameters
   * give 400, a missing `user1` or `user2` gives 400 listing the keys
   * present, and both present go to the two-user branch.
   */
  function UserGet(s: Store, userId: Option<string>, args: seq<Param>, rd: Reading): (r: Response)
    ensures r.status == 200 || r.status == 400 || r.status == 404 || r == UnknownError
    ensures IdGiven(userId) ==>
      && r.status != 400
      && (r.status == 404 <==> FindUser(s, userId.value) == Ok(None))
      && (r.status == 404 ==> r.payload == Error("User being retrieved does not exist"))
      && (r.status == 200 <==>
            FindUser(s, userId.value).Ok? && FindUser(s, userId.value).value.Some?
            && FindUser(s, userId.value).value.value.attributes.PersonAttributes?)
      && (r.status == 200 ==> r.payload == UserDetails(FindUser(s, userId.value).value.value.attributes.person))
    ensures !IdGiven(userId) && args == [] ==> r == Response(Error("No query parameters"), 400)
    ensures !IdGiven(userId) && args != [] && (Arg(args, "user1").None? || Arg(args, "user2").None?) ==>
      r == Response(Error(MissingParameterMessage(args)), 400)
    ensures !IdGiven(userId) && Arg(args, "user1").Some? && Arg(args, "user2").Some? ==>
      r == UserPair(s, Arg(args, "user1").value, Arg(args, "user2").value, rd)
    ensures r.status == 404 ==> IdGiven(userId)
  {
    if IdGiven(userId) then
      match FindUser(s, userId.value)
      case Raised(_) => UnknownError
      case Ok(None) => Response(Error("User being retrieved does not exist"), 404)
      case Ok(Some(user)) =>
        if user.attributes.PersonAttributes? then Response(UserDetails(user.attributes.person), 200)
        else UnknownError // KeyError: 'username'
    else if args == [] then Response(Error("No query parameters"), 400)
    else if Arg(args, "user1").None? || Arg(args, "user2").None? then
      Response(Error(MissingParameterMessage(args)), 400)
    else UserPair(s, Arg(args, "user1").value, Arg(args, "user2").value, rd)
  }
}

=== FILE: interlock.dfy ===
/**
 * How the loader's key encoding and the serving queries fit together:
 * the four lookup groups cover every index key the loader writes, a
 * loaded person is found by its id, a person's sort key puts it in its
 * employer's employee scan, and the id-plus-'#' prefix makes the company
 * and employee scans exact; in a company partition kept in sort-key
 * order the as-written scan still names a loaded company correctly. The
 * last section exhibits, for each of the four places where the code as
 * written and the alternative differ, an input on which they do.
 */
module Interlock {
  import opened Wrappers
  import opened Text
  import opened Table
  import opened LoadData
  import opened App

  // ---------------------------------------------------------------------
  // The four groups and the index keys the loader writes

  /** Position of the group of a flag pair in the lookup order. */
  function GroupIndex(brownEyes: bool, hasDied: bool): (j: nat)
    ensures j < |LsiKeyCombinations|
    ensures (j < 2) == brownEyes && (j % 2 == 0) == hasDied
  {
    (if brownEyes then 0 else 2) + (if hasDied then 0 else 1)
  }

  /** Group j followed by '#' and a user id is the index key of flags (j < 2, j even) and that id. */
  lemma GroupKeyIsEncoding(j: nat, userId: string)
    requires j < |LsiKeyCombinations|
    ensures LsiKeyCombinations[j] + "#" + userId == EncodeLsi(LsiKey(j < 2, j % 2 == 0, userId))
  {
    var k := LsiKey(j < 2, j % 2 == 0, userId);
    assert LsiKeyCombinations[j] + "#" == FlagField(k.brownEyes) + FlagField(k.hasDied);
  }

  /** Every index key the loader can write is one of the four lookup keys of its user id. */
  lemma GroupsCoverEveryKey(k: LsiKey)
    ensures exists j :: 0 <= j < |LsiKeyCombinations| && LsiKeyCombinations[j] + "#" + k.userId == EncodeLsi(k)
  {
    var j := GroupIndex(k.brownEyes, k.hasDied);
    GroupKeyIsEncoding(j, k.userId);
  }

  /** `row` is the only person item of the index whose key decodes to `userId`. */
  predicate OnlyIndexedAs(rows: seq<Row>, userId: string, item: Row)
  {
    forall row :: row in rows && row.pk == "person" && row.lsi.Some?
      && DecodeLsi(row.lsi.value).Some? && DecodeLsi(row.lsi.value).value.userId == userId
      ==> row == item
  }

  /** Under that uniqueness, any hit of any group is the loaded item, found in its own group. */
  lemma HitIsLoadedItem(s: Store, p: RawPerson, j: nat, row: Row)
    requires OnlyIndexedAs(s.rows, p.id, PersonItem(p))
    requires j < |LsiKeyCombinations| && row in GroupHits(s, p.id, j)
    ensures row == PersonItem(p) && j == GroupIndex(IsBrown(p.eyeColor), p.hasDied)
  {
    var item := PersonItem(p);
    var k := LsiKey(IsBrown(p.eyeColor), p.hasDied, p.id);
    var kj := LsiKey(j < 2, j % 2 == 0, p.id);
    GroupKeyIsEncoding(j, p.id);
    DecodeEncodeLsi(kj);
    CandidatesMembership(s.rows, UserKey(p.id, LsiKeyCombinations[j]));
    assert row == item;
    PersonLsiDecodes(p);
    EncodeDecodeLsi(item.lsi.value);
    EncodeLsiInjective(kj, k);
  }

  /** A loaded person is among the hits of the group its own flags select. */
  lemma LoadedPersonHitsOwnGroup(s: Store, p: RawPerson)
    requires PersonItem(p) in s.rows
    ensures PersonItem(p) in GroupHits(s, p.id, GroupIndex(IsBrown(p.eyeColor), p.hasDied))
  {
    var g := GroupIndex(IsBrown(p.eyeColor), p.hasDied);
    PersonLsiDecodes(p);
    EncodeDecodeLsi(PersonItem(p).lsi.value);
    GroupKeyIsEncoding(g, p.id);
    CandidatesMembership(s.rows, UserKey(p.id, LsiKeyCombinations[g]));
  }

  /**
   * A loaded person whose id no other item of the index carries is what
   * the four-group lookup returns, whichever group its flags put it in.
   */
  lemma LoadedPersonIsFound(s: Store, p: RawPerson)
    requires s.reachable
    requires PersonItem(p) in s.rows
    requires OnlyIndexedAs(s.rows, p.id, PersonItem(p))
    ensures FindUser(s, p.id) == Ok(Some(PersonItem(p)))
  {
    var g := GroupIndex(IsBrown(p.eyeColor), p.hasDied);
    LoadedPersonHitsOwnGroup(s, p);
    assert GroupHits(s, p.id, g) != [];
    var r := FindUser(s, p.id);
    assert r != Ok(None);
    var kk :| FirstHit(s, p.id, 0, kk, r.value.value);
    var hits := GroupHits(s, p.id, kk);
    assert hits[0] in hits;
    HitIsLoadedItem(s, p, kk, hits[0]);
  }

  // ---------------------------------------------------------------------
  // Sort keys and the prefix scans

  /** A person's item is in its employer's employee scan, as written and as intended. */
  lemma EmployeeScanListsEveryEmployee(s: Store, p: RawPerson, rd: Reading)
    requires PersonItem(p) in s.rows
    ensures PersonItem(p) in Candidates(s.rows, EmployeeKey(p.companyId, rd))
  {
    var sk, c := PersonItem(p).sk, NatToString(p.companyId);
    assert sk[..|c|] == (c + "#")[..|c|] == c;
    CandidatesMembership(s.rows, EmployeeKey(p.companyId, rd));
  }

  /** Every person item carries the sort key the loader derives from its attributes. */
  predicate PersonKeysAsLoaded(rows: seq<Row>)
  {
    forall row :: row in rows && row.pk == "person" ==>
      row.attributes.PersonAttributes?
      && row.sk == PersonSk(row.attributes.person.companyId, row.attributes.person.index)
  }

  /** Every company item is the item the loader writes for one of the company records. */
  predicate CompanyRowsAsLoaded(rows: seq<Row>, companies: seq<RawCompany>)
  {
    forall row :: row in rows && row.pk == "company" ==> exists c :: c in companies && row == CompanyItem(c)
  }

  /**
   * A table holding only what the two loaders write, in any order, meets
   * the assumptions of the exact-scan lemmas below.
   */
  lemma LoadedTableIsAsLoaded(rows: seq<Row>, companies: seq<RawCompany>, people: seq<RawPerson>)
    requires forall row :: row in rows ==>
      (exists c :: c in companies && row == CompanyItem(c)) || (exists p :: p in people && row == PersonItem(p))
    ensures CompanyRowsAsLoaded(rows, companies)
    ensures PersonKeysAsLoaded(rows)
  {
    forall row | row in rows && row.pk == "person"
      ensures row.attributes.PersonAttributes?
      ensures row.sk == PersonSk(row.attributes.person.companyId, row.attributes.person.index)
    {
      var p :| p in people && row == PersonItem(p);
      PersonItemFields(p);
    }
  }

  /** With the '#' after the id, the employee scan selects exactly the company's people. */
  lemma IntendedEmployeeScanIsExact(s: Store, companyId: nat)
    requires PersonKeysAsLoaded(s.rows)
    ensures forall row :: row in Candidates(s.rows, EmployeeKey(companyId, Intended)) <==>
      row in s.rows && row.pk == "person"
      && row.attributes.PersonAttributes? && row.attributes.person.companyId == companyId
  {
    CandidatesMembership(s.rows, EmployeeKey(companyId, Intended));
    forall row | row in s.rows && row.pk == "person"
      ensures KeyMatches(row, EmployeeKey(companyId, Intended)) <==> row.attributes.person.companyId == companyId
    {
      var q := row.attributes.person;
      IdHashPrefixExact(q.companyId, companyId, NatToString(q.index));
    }
  }

  /** With the '#' after the id, the company scan selects exactly the items of companies with that index. */
  lemma IntendedCompanyScanIsExact(s: Store, companies: seq<RawCompany>, companyId: nat)
    requires CompanyRowsAsLoaded(s.rows, companies)
    ensures forall row :: row in Candidates(s.rows, CompanyKey(companyId, Intended)) <==>
      row in s.rows && row.pk == "company" && exists c :: c in companies && row == CompanyItem(c) && c.index == companyId
  {
    CandidatesMembership(s.rows, CompanyKey(companyId, Intended));
    forall row | row in s.rows && row.pk == "company"
      ensures KeyMatches(row, CompanyKey(companyId, Intended)) <==>
        exists c :: c in companies && row == CompanyItem(c) && c.index == companyId
    {
      var c :| c in companies && row == CompanyItem(c);
      IdHashPrefixExact(c.index, companyId, c.company + "#");
      assert row.sk == NatToString(c.index) + "#" + (c.company + "#");
      forall d | d in companies && row == CompanyItem(d)
        ensures d.index == c.index
      {
        IdHashPrefixExact(d.index, c.index, d.company + "#");
        assert row.sk == NatToString(d.index) + "#" + (d.company + "#");
      }
    }
  }

  /** Intended: 404 exactly when no loaded company has the requested index. */
  lemma IntendedCompanyNotFound(s: Store, companies: seq<RawCompany>, companyId: nat)
    requires s.reachable
    requires CompanyRowsAsLoaded(s.rows, companies)
    ensures CompanyGet(s, companyId, Intended).status == 404 <==>
      forall c :: c in companies && c.index == companyId ==> CompanyItem(c) !in s.rows
  {
    IntendedCompanyScanIsExact(s, companies, companyId);
    var cs := Candidates(s.rows, CompanyKey(companyId, Intended));
    if cs != [] {
      assert cs[0] in cs;
    }
  }

  /**
   * As written, in a company partition kept in sort-key order, the first
   * item the scan for c's index finds belongs to a company with that
   * index: another id with the same leading digits runs on in a digit
   * where c's key has '#', and '#' sorts before every digit.
   */
  lemma {:induction false} SortedScanFindsOwnIdFirst(rows: seq<Row>, c: RawCompany, d: RawCompany)
    requires PartitionInSkOrder(rows, "company")
    requires CompanyItem(c) in Candidates(rows, CompanyKey(c.index, AsWritten))
    requires Candidates(rows, CompanyKey(c.index, AsWritten))[0] == CompanyItem(d)
    ensures d.index == c.index
  {
    var n := NatToString(c.index);
    var mine, first := CompanyItem(c).sk, CompanyItem(d).sk;
    if d.index != c.index {
      var cs := Candidates(rows, CompanyKey(c.index, AsWritten));
      CandidatesMembership(rows, CompanyKey(c.index, AsWritten));
      assert cs[0] in cs;
      assert first == NatToString(d.index) + "#" + (d.company + "#");
      assert StartsWith(first, n);
      IdPrefixWithoutHash(d.index, c.index, d.company + "#");
      assert mine[..|n| + 1] == n + "#";
      assert mine[..|n|] == mine[..|n| + 1][..|n|] == n == first[..|n|];
      assert mine[|n|] == mine[..|n| + 1][|n|] == '#';
      HashSortsBeforeDigit(mine, first, |n|);
      FirstCandidateIsLeast(rows, CompanyKey(c.index, AsWritten));
      assert false;
    }
  }

  /** A company's item matches the company scan for its own index, as written and as intended. */
  lemma CompanyMatchesOwnScan(c: RawCompany, rd: Reading)
    ensures KeyMatches(CompanyItem(c), CompanyKey(c.index, rd))
  {
    var n, sk := NatToString(c.index), CompanyItem(c).sk;
    assert sk[..|n| + 1] == n + "#";
    assert sk[..|n|] == sk[..|n| + 1][..|n|] == n;
  }

  /** With the '#' after the id, only items of companies with that index match. */
  lemma IntendedScanMatchesOwnId(d: RawCompany, companyId: nat)
    requires KeyMatches(CompanyItem(d), CompanyKey(companyId, Intended))
    ensures d.index == companyId
  {
    assert CompanyItem(d).sk == NatToString(d.index) + "#" + (d.company + "#");
    IdHashPrefixExact(d.index, companyId, d.company + "#");
  }

  /**
   * The company scan for a loaded company's index finds something, and
   * the first item it finds is the item of a company with that index.
   */
  lemma FirstCompanyFound(s: Store, companies: seq<RawCompany>, c: RawCompany, rd: Reading) returns (d: RawCompany)
    requires CompanyItem(c) in s.rows
    requires CompanyRowsAsLoaded(s.rows, companies)
    requires rd == AsWritten ==> PartitionInSkOrder(s.rows, "company")
    ensures var cs := Candidates(s.rows, CompanyKey(c.index, rd));
      cs != [] && cs[0] == CompanyItem(d) && d in companies && d.index == c.index
  {
    var cs := Candidates(s.rows, CompanyKey(c.index, rd));
    CompanyMatchesOwnScan(c, rd);
    CandidatesMembership(s.rows, CompanyKey(c.index, rd));
    assert CompanyItem(c) in cs;
    assert cs[0] in cs;
    d :| d in companies && cs[0] == CompanyItem(d);
    if rd == Intended {
      IntendedScanMatchesOwnId(d, c.index);
    } else {
      SortedScanFindsOwnIdFirst(s.rows, c, d);
    }
  }

  /**
   * A loaded company whose index no other record shares is answered 200
   * under its own name: with the '#' after the id in any table order, and
   * as written when the company partition is in sort-key order.
   */
  lemma LoadedCompanyIsNamed(s: Store, companies: seq<RawCompany>, c: RawCompany, rd: Reading)
    requires s.reachable && c in companies && CompanyItem(c) in s.rows
    requires CompanyRowsAsLoaded(s.rows, companies)
    requires forall d :: d in companies && d.index == c.index ==> d == c
    requires rd == AsWritten ==> PartitionInSkOrder(s.rows, "company")
    ensures CompanyGet(s, c.index, rd).status == 200
    ensures CompanyGet(s, c.index, rd).payload.companyName == c.company
  {
    var d := FirstCompanyFound(s, companies, c, rd);
  }

  // ---------------------------------------------------------------------
  // The behaviours of the code as written, against the intended ones

  /**
   * Prefix collision: "1" is a prefix of "10", so the scans for company 1
   * select company 10 and its people; with "1#" they do not.
   */
  lemma PrefixCollisionAsWritten(c: RawCompany, p: RawPerson)
    requires c.index == 10 && p.companyId == 10
    ensures KeyMatches(CompanyItem(c), CompanyKey(1, AsWritten))
    ensures !KeyMatches(CompanyItem(c), CompanyKey(1, Intended))
    ensures KeyMatches(PersonItem(p), EmployeeKey(1, AsWritten))
    ensures !KeyMatches(PersonItem(p), EmployeeKey(1, Intended))
  {
    assert NatToString(10) == "10";
    assert NatToString(1) == "1";
    IdHashPrefixExact(10, 1, c.company + "#");
    assert CompanyItem(c).sk == NatToString(10) + "#" + (c.company + "#");
    IdHashPrefixExact(10, 1, NatToString(p.index));
  }

  /** With only company 10 loaded, GET /companies/1 answers 200 with company 10's name as written, 404 as intended. */
  lemma WrongCompanyReturned(c: RawCompany, pageSize: PageSize)
    requires c.index == 10
    ensures var s := Store([CompanyItem(c)], pageSize, true);
      && CompanyGet(s, 1, AsWritten) == Response(CompanyView(1, c.company, [], None), 200)
      && CompanyGet(s, 1, Intended) == Response(Error(CompanyNotFound), 404)
  {
    var s := Store([CompanyItem(c)], pageSize, true);
    PrefixCollisionAsWritten(c, RawPerson("", 0, "", 0.0, "", false, 10, "", "", "", [], [], []));
    assert Candidates(s.rows, CompanyKey(1, AsWritten)) == [CompanyItem(c)];
    assert Candidates(s.rows, CompanyKey(1, Intended)) == [];
    assert Candidates(s.rows, EmployeeKey(1, AsWritten)) == [];
  }

  /** An index key that begins with 'True#False' decodes, if at all, to brown eyes and not died. */
  lemma TrueFalseGroupFlags(x: string)
    requires StartsWith(x, "True#False") && DecodeLsi(x).Some?
    ensures DecodeLsi(x).value.brownEyes && !DecodeLsi(x).value.hasDied
  {
    assert x[..5] == "True#";
    var rest := x[5..];
    assert rest[0] == 'F';
  }

  /**
   * Narrow friend scan: a common friend whose eyes are not brown, or who
   * has died, is never returned as written; as intended it always is.
   */
  lemma NarrowScanMissesFriend(s: Store, ids: set<nat>, p: RawPerson)
    requires s.reachable && PersonItem(p) in s.rows && p.index in ids
    requires !IsBrown(p.eyeColor) || p.hasDied
    ensures PersonItem(p) !in RetrieveCommonFriends(s, ids, [], None, AsWritten).value
    ensures PersonItem(p) in RetrieveCommonFriends(s, ids, [], None, Intended).value
  {
    var item := PersonItem(p);
    PersonLsiDecodes(p);
    if item in RetrieveCommonFriends(s, ids, [], None, AsWritten).value {
      RetrievedFriendsAreRequested(s, ids, [], None, AsWritten);
      TrueFalseGroupFlags(item.lsi.value);
    }
    ResolvesAllRequestedFriends(s, ids);
  }

  /** As written, only friends whose index key is in the 'True#False' group are returned. */
  lemma AsWrittenFriendsInTrueFalseGroup(s: Store, ids: set<nat>)
    requires s.reachable
    ensures var r := RetrieveCommonFriends(s, ids, [], None, AsWritten);
      r.Ok? ==> forall row :: row in r.value ==>
      row.pk == "person" && row.lsi.Some? && StartsWith(row.lsi.value, "True#False")
      && row.attributes.PersonAttributes? && row.attributes.person.index in ids
  {
    RetrievedFriendsAreRequested(s, ids, [], None, AsWritten);
  }

  /** Both users exist, are people, and share no friend. */
  predicate NoCommonFriend(s: Store, id1: string, id2: string)
  {
    && FindUser(s, id1).Ok? && FindUser(s, id1).value.Some?
    && FindUser(s, id2).Ok? && FindUser(s, id2).value.Some?
    && FindUser(s, id1).value.value.attributes.PersonAttributes?
    && FindUser(s, id2).value.value.attributes.PersonAttributes?
    && CommonFriendIds(FindUser(s, id1).value.value.attributes.person.friends,
                       FindUser(s, id2).value.value.attributes.person.friends) == {}
  }

  /**
   * Empty intersection, as written: the friend query carries
   * `index IN ()`, which the store rejects, so the handler answers 500.
   */
  lemma NoCommonFriendFailsAsWritten(s: Store, id1: string, id2: string)
    requires s.reachable && NoCommonFriend(s, id1, id2)
    ensures UserPair(s, id1, id2, AsWritten) == UnknownError
  {
  }

  /** Empty intersection, with the empty set answered directly: 200 with no common friends. */
  lemma NoCommonFriendIsEmptyList(s: Store, id1: string, id2: string)
    requires s.reachable && NoCommonFriend(s, id1, id2)
    ensures var p1, p2 := FindUser(s, id1).value.value.attributes.person, FindUser(s, id2).value.value.attributes.person;
      UserPair(s, id1, id2, Intended) == Response(PairView(ProfileOf(p1), ProfileOf(p2), []), 200)
  {
  }

  /** An item the as-written friend scan reads and the id filter keeps. */
  predicate TrueFalseFriend(row: Row, ids: set<nat>)
  {
    && KeyMatches(row, FriendKey(AsWritten))
    && row.attributes.PersonAttributes? && row.attributes.person.index in ids
  }

  /** The index key of brown eyes and not died begins with 'True#False'. */
  lemma TrueFalseKeyPrefix(userId: string)
    ensures StartsWith(EncodeLsi(LsiKey(true, false, userId)), "True#False")
  {
    var e := EncodeLsi(LsiKey(true, false, userId));
    assert e == "True#False#" + userId;
    assert e[..10] == "True#False";
  }

  /** A loaded person with brown eyes who has not died is such an item, given its index is requested. */
  lemma LoadedTrueFalseFriend(p: RawPerson, ids: set<nat>)
    requires IsBrown(p.eyeColor) && !p.hasDied && p.index in ids
    ensures TrueFalseFriend(PersonItem(p), ids)
  {
    TrueFalseKeyPrefix(p.id);
  }

  /**
   * Discarded recursion: with one item per page and two matching friends,
   * the code as written returns the first only; the intended chaining
   * returns both.
   */
  lemma FirstPageOnlyDropsLaterPages(r1: Row, r2: Row, ids: set<nat>)
    requires TrueFalseFriend(r1, ids) && TrueFalseFriend(r2, ids)
    ensures var s := Store([r1, r2], 1, true);
      && RetrieveCommonFriends(s, ids, [], None, AsWritten) == Ok([r1])
      && RetrieveCommonFriends(s, ids, [], None, Intended) == Ok([r1, r2])
  {
    var s := Store([r1, r2], 1, true);
    assert s.rows[1..] == [r2] && s.rows[1..][1..] == [];
    var c := Candidates(s.rows, FriendKey(AsWritten));
    assert Candidates(s.rows[1..], FriendKey(AsWritten)) == [r2];
    assert c == [r1, r2];
    FirstPageOnly(s, ids);
    assert c[0..1] == [r1];
    assert FilterRows([r1], Some(ids)) == [r1];
    ResolvesAllRequestedFriends(s, ids);
    assert Candidates(s.rows, FriendKey(Intended)) == [r1, r2];
    assert [r1, r2][1..] == [r2];
    assert FilterRows([r1, r2], Some(ids)) == [r1, r2];
  }

  /**
   * The same for two loaded people with brown eyes who have not died and
   * are friends of both users: as written only the first page's one is
   * returned.
   */
  lemma LoadedFriendsOnLaterPagesDropped(p1: RawPerson, p2: RawPerson, ids: set<nat>)
    requires IsBrown(p1.eyeColor) && !p1.hasDied && p1.index in ids
    requires IsBrown(p2.eyeColor) && !p2.hasDied && p2.index in ids
    ensures var s := Store([PersonItem(p1), PersonItem(p2)], 1, true);
      && RetrieveCommonFriends(s, ids, [], None, AsWritten) == Ok([PersonItem(p1)])
      && RetrieveCommonFriends(s, ids, [], None, Intended) == Ok([PersonItem(p1), PersonItem(p2)])
  {
    LoadedTrueFalseFriend(p1, ids);
    LoadedTrueFalseFriend(p2, ids);
    FirstPageOnlyDropsLaterPages(PersonItem(p1), PersonItem(p2), ids);
  }

  // ---------------------------------------------------------------------
  // Small scenarios

  /** Person A with friends {1, 2} and person B with friends {2, 3} share exactly friend 2. */
  lemma CommonFriendsScenario()
    ensures CommonFriendIds([1, 2], [2, 3]) == {2}
  {
    assert 2 in CommonFriendIds([1, 2], [2, 3]);
  }

  /** With only `user1` given, the message lists that one key. */
  lemma OneKeyMessage(args: seq<Param>)
    requires args == [Param("user1", "X")]
    ensures Arg(args, "user1").Some? && Arg(args, "user2") == None
    ensures MissingParameterMessage(args) == "One of the required query parameters missing. Existing keys: ['user1']"
  {
    assert args[1..] == [];
    assert ArgKeys(args) == ["user1"];
    assert QuotedList(["user1"]) == "'user1'";
    assert KeysRepr(["user1"]) == "['user1']";
  }

  /** `GET /users/?user1=X` answers 400 naming the one key present. */
  lemma MissingSecondUserScenario(s: Store, rd: Reading)
    ensures UserGet(s, None, [Param("user1", "X")], rd)
         == Response(Error("One of the required query parameters missing. Existing keys: ['user1']"), 400)
  {
    OneKeyMessage([Param("user1", "X")]);
  }
}

=== FILE: load_data.dfy ===
/**
 * The batch loader: how a company record and a person record of the
 * input files become items of the single table. Writing the items
 * (`batch_writer().put_item`) is left to the caller: the loaders here
 * return the items they would write, in order.
 */
module LoadData {
  import opened Wrappers
  import opened Text
  import opened Table

  /** A company record of the companies file. */
  datatype RawCompany = RawCompany(index: nat, company: string)

  /** One entry of a person's `friends` list in the people file. */
  datatype FriendRef = FriendRef(index: nat)

  /** A person record of the people file (`_id` is `id`, `company_id` is `companyId`). */
  datatype RawPerson = RawPerson(
    id: string,
    index: nat,
    name: string,
    age: real,
    eyeColor: string,
    hasDied: bool,
    companyId: nat,
    address: string,
    phone: string,
    email: string,
    fruits: seq<string>,
    vegetables: seq<string>,
    friends: seq<FriendRef>)

  // ---------------------------------------------------------------------
  // Companies

  /**
   * The item written for a company: partition 'company', sort key
   * `"<index>#<company>#"`, the name under `metadata`, and no index key.
   */
  function CompanyItem(c: RawCompany): (row: Row)
    ensures row.pk == "company" && row.lsi == None
    ensures row.attributes == Metadata(c.company)
    ensures StartsWith(row.sk, NatToString(c.index) + "#")
    ensures row.sk[|row.sk| - 1] == '#'
  {
    Row("company", NatToString(c.index) + "#" + c.company + "#", None, Metadata(c.company))
  }

  /** `load_companies`: one item per record, in file order. */
  method LoadCompanies(companies: seq<RawCompany>) returns (items: seq<Row>)
    ensures |items| == |companies|
    ensures forall i :: 0 <= i < |companies| ==> items[i] == CompanyItem(companies[i])
  {
    items := [];
    for i := 0 to |companies|
      invariant |items| == i
      invariant forall j :: 0 <= j < i ==> items[j] == CompanyItem(companies[j])
    {
      items := items + [CompanyItem(companies[i])];
    }
  }

  // ---------------------------------------------------------------------
  // The person index key: "<brown eyes>#<has died>#<user id>"

  datatype LsiKey = LsiKey(brownEyes: bool, hasDied: bool, userId: string)

  function EncodeLsi(k: LsiKey): (s: string)
    ensures StartsWith(s, "True#") || StartsWith(s, "False#")
    ensures |s| >= |k.userId| + 1 && s[|s| - |k.userId| - 1..] == "#" + k.userId
  {
    var brown := FlagField(k.brownEyes);
    var died := FlagField(k.hasDied);
    assert brown + (died + k.userId) == brown + died + k.userId;
    PrefixOfConcat(brown, died + k.userId);
    HashThenSuffix(brown + died, k.userId);
    brown + died + k.userId
  }

  /** Reads one leading "True#" or "False#" field. */
  function DecodeBoolField(s: string): Option<(bool, string)>
  {
    if StartsWith(s, "True#") then Some((true, s[5..]))
    else if StartsWith(s, "False#") then Some((false, s[6..]))
    else None
  }

  /** Splits an index key back into its two flags and the user id. */
  function DecodeLsi(s: string): Option<LsiKey>
  {
    match DecodeBoolField(s)
    case None => None
    case Some((brown, rest)) =>
      match DecodeBoolField(rest)
      case None => None
      case Some((died, userId)) => Some(LsiKey(brown, died, userId))
  }

  /** The leading field `str(b) + "#"`. */
  function FlagField(b: bool): (f: string)
    ensures f == if b then "True#" else "False#"
  {
    BoolStr(b) + "#"
  }

  lemma DecodeBoolFieldOfBoolStr(b: bool, rest: string)
    ensures DecodeBoolField(FlagField(b) + rest) == Some((b, rest))
  {
    PrefixOfConcat(FlagField(b), rest);
    if !b {
      assert (FlagField(b) + rest)[0] == 'F';
    }
  }

  /** A text that decodes as one leading field is that field followed by the rest. */
  lemma DecodedBoolField(s: string)
    requires DecodeBoolField(s).Some?
    ensures s == FlagField(DecodeBoolField(s).value.0) + DecodeBoolField(s).value.1
  {
    if StartsWith(s, "True#") { StartsWithSplit(s, "True#"); } else { StartsWithSplit(s, "False#"); }
  }

  /** Decoding an encoded index key gives back its flags and user id. */
  lemma DecodeEncodeLsi(k: LsiKey)
    ensures DecodeLsi(EncodeLsi(k)) == Some(k)
  {
    var tail := FlagField(k.hasDied) + k.userId;
    assert FlagField(k.brownEyes) + tail == FlagField(k.brownEyes) + FlagField(k.hasDied) + k.userId;
    DecodeBoolFieldOfBoolStr(k.brownEyes, tail);
    DecodeBoolFieldOfBoolStr(k.hasDied, k.userId);
  }

  /** Whatever decodes is the encoding of what it decodes to. */
  lemma EncodeDecodeLsi(s: string)
    requires DecodeLsi(s).Some?
    ensures EncodeLsi(DecodeLsi(s).value) == s
  {
    var k := DecodeLsi(s).value;
    var r1 := DecodeBoolField(s).value.1;
    DecodedBoolField(s);
    DecodedBoolField(r1);
    assert FlagField(k.brownEyes) + (FlagField(k.hasDied) + k.userId)
        == FlagField(k.brownEyes) + FlagField(k.hasDied) + k.userId;
  }

  /** Two index keys are equal only when their flags and user ids are. */
  lemma EncodeLsiInjective(k1: LsiKey, k2: LsiKey)
    requires EncodeLsi(k1) == EncodeLsi(k2)
    ensures k1 == k2
  {
    DecodeEncodeLsi(k1);
    DecodeEncodeLsi(k2);
  }

  // ---------------------------------------------------------------------
  // vector_operations: the derived key and username columns

  predicate IsBrown(eyeColor: string)
  {
    Lower(eyeColor) == "brown"
  }

  /** Person sort key `"<company_id>#<index>"`: it begins with the employer's id. */
  function PersonSk(companyId: nat, index: nat): string
  {
    NatToString(companyId) + "#" + NatToString(index)
  }

  lemma PersonSkPrefix(companyId: nat, index: nat)
    ensures StartsWith(PersonSk(companyId, index), NatToString(companyId) + "#")
    ensures StartsWith(PersonSk(companyId, index), NatToString(companyId))
  {
    var c := NatToString(companyId);
    PrefixOfConcat(c + "#", NatToString(index));
    assert (c + "#")[..|c|] == c;
  }

  function PersonLsi(p: RawPerson): string
  {
    EncodeLsi(LsiKey(IsBrown(p.eyeColor), p.hasDied, p.id))
  }

  lemma PersonLsiDecodes(p: RawPerson)
    ensures DecodeLsi(PersonLsi(p)) == Some(LsiKey(IsBrown(p.eyeColor), p.hasDied, p.id))
  {
    DecodeEncodeLsi(LsiKey(IsBrown(p.eyeColor), p.hasDied, p.id));
  }

  function SkVector(people: seq<RawPerson>): (v: seq<string>)
    ensures |v| == |people|
    ensures forall i :: 0 <= i < |people| ==> v[i] == PersonSk(people[i].companyId, people[i].index)
  {
    seq(|people|, i requires 0 <= i < |people| => PersonSk(people[i].companyId, people[i].index))
  }

  function LsiVector(people: seq<RawPerson>): (v: seq<string>)
    ensures |v| == |people|
    ensures forall i :: 0 <= i < |people| ==> v[i] == PersonLsi(people[i])
  {
    seq(|people|, i requires 0 <= i < |people| => PersonLsi(people[i]))
  }

  function UsernameVector(people: seq<RawPerson>): (v: seq<string>)
    ensures |v| == |people|
    ensures forall i :: 0 <= i < |people| ==> v[i] == FirstToken(people[i].name)
  {
    seq(|people|, i requires 0 <= i < |people| => FirstToken(people[i].name))
  }

  function CountIn(column: string, columns: seq<string>): nat
  {
    if column in columns then 1 else 0
  }

  /**
   * `vector_operations`: one column per requested name among 'sk', 'lsi'
   * and 'username', always in that order, one entry per record.
   */
  function VectorOperations(columns: seq<string>, people: seq<RawPerson>): (vectors: seq<seq<string>>)
    ensures |vectors| == CountIn("sk", columns) + CountIn("lsi", columns) + CountIn("username", columns)
    ensures "sk" in columns ==> vectors[0] == SkVector(people)
    ensures "lsi" in columns ==> vectors[CountIn("sk", columns)] == LsiVector(people)
    ensures "username" in columns ==> vectors[|vectors| - 1] == UsernameVector(people)
  {
    var sk := if "sk" in columns then [SkVector(people)] else [];
    var lsi := if "lsi" in columns then [LsiVector(people)] else [];
    var username := if "username" in columns then [UsernameVector(people)] else [];
    sk + lsi + username
  }

  // ---------------------------------------------------------------------
  // load_people: the other column transforms and the items

  /** `astype(int)` on a float: truncation toward zero. */
  function TruncateToInt(x: real): (n: int)
    ensures 0.0 <= x ==> 0 <= n && n as real <= x < n as real + 1.0
    ensures x < 0.0 ==> n <= 0 && n as real - 1.0 < x <= n as real
  {
    if 0.0 <= x then x.Floor else -((-x).Floor)
  }

  /** The friends column: the `index` of each referenced record, in list order. */
  function FriendIndices(friends: seq<FriendRef>): (r: seq<nat>)
    ensures |r| == |friends|
    ensures forall i :: 0 <= i < |friends| ==> r[i] == friends[i].index
  {
    seq(|friends|, i requires 0 <= i < |friends| => friends[i].index)
  }

  /** The item of one record, given its derived key and username columns. */
  function AssembleItem(p: RawPerson, sk: string, lsi: string, username: string): Row
  {
    Row("person", sk, Some(lsi), PersonAttributes(Person(
      p.index, p.id, p.name, username, TruncateToInt(p.age), p.address, p.phone, p.email,
      p.eyeColor, p.hasDied, p.fruits, p.vegetables, FriendIndices(p.friends), p.companyId)))
  }

  /**
   * The item written for a person: partition 'person', a sort key that
   * begins with the employer id, an index key that decodes to the two
   * flags and the user id, `_id` renamed `user_id` and `name` renamed
   * `fullname`, the username a leading token of the name, the age
   * truncated and the friends reduced to their indices.
   */
  function PersonItem(p: RawPerson): Row
  {
    AssembleItem(p, PersonSk(p.companyId, p.index), PersonLsi(p), FirstToken(p.name))
  }

  /**
   * A person item is in the `person` partition under its employer-prefixed
   * sort key and a decodable index key. It renames `_id` and `name`,
   * derives the username, truncates the age and reduces friends to indices.
   */
  lemma PersonItemFields(p: RawPerson)
    ensures var row := PersonItem(p);
      && row.pk == "person"
      && StartsWith(row.sk, NatToString(p.companyId) + "#")
      && row.lsi.Some? && DecodeLsi(row.lsi.value) == Some(LsiKey(IsBrown(p.eyeColor), p.hasDied, p.id))
      && row.attributes.PersonAttributes?
      && var q := row.attributes.person;
      && q.userId == p.id && q.fullname == p.name && q.index == p.index && q.companyId == p.companyId
      && StartsWith(p.name, q.username) && ' ' !in q.username
      && q.age == TruncateToInt(p.age)
      && |q.friends| == |p.friends|
      && (forall i :: 0 <= i < |p.friends| ==> q.friends[i] == p.friends[i].index)
  {
    PersonSkPrefix(p.companyId, p.index);
    PersonLsiDecodes(p);
  }

  /** With all three columns requested, the columns come back as `sk`, `lsi`, `username`. */
  lemma AllThreeColumns(people: seq<RawPerson>)
    ensures VectorOperations(["sk", "lsi", "username"], people)
         == [SkVector(people), LsiVector(people), UsernameVector(people)]
  {
    var columns := ["sk", "lsi", "username"];
    assert columns[0] == "sk" && columns[1] == "lsi" && columns[2] == "username";
  }

  /** Entry `i` of the three columns, assembled with record `i`, is that record's person item. */
  lemma ColumnEntryIsPersonItem(people: seq<RawPerson>, sk: seq<string>, lsi: seq<string>, username: seq<string>, i: nat)
    requires sk == SkVector(people) && lsi == LsiVector(people) && username == UsernameVector(people)
    requires i < |people|
    ensures AssembleItem(people[i], sk[i], lsi[i], username[i]) == PersonItem(people[i])
  {
  }

  /** Appending the next record's person item keeps the items those of the records so far. */
  lemma AppendPersonItem(items: seq<Row>, people: seq<RawPerson>, item: Row)
    requires |items| < |people| && item == PersonItem(people[|items|])
    requires forall j :: 0 <= j < |items| ==> items[j] == PersonItem(people[j])
    ensures forall j :: 0 <= j < |items| + 1 ==> (items + [item])[j] == PersonItem(people[j])
  {
  }

  /**
   * `load_people`: derive the key and username columns for the whole
   * file, then emit one item per record, in file order.
   */
  method LoadPeople(people: seq<RawPerson>) returns (items: seq<Row>)
    ensures |items| == |people|
    ensures forall i :: 0 <= i < |people| ==> items[i] == PersonItem(people[i])
  {
    AllThreeColumns(people);
    var vectors := VectorOperations(["sk", "lsi", "username"], people);
    var sk, lsi, username := vectors[0], vectors[1], vectors[2];
    assert sk == SkVector(people) && lsi == LsiVector(people) && username == UsernameVector(people);
    items := [];
    for i := 0 to |people|
      invariant |items| == i
      invariant forall j :: 0 <= j < i ==> items[j] == PersonItem(people[j])
    {
      ColumnEntryIsPersonItem(people, sk, lsi, username, i);
      AppendPersonItem(items, people, AssembleItem(people[i], sk[i], lsi[i], username[i]));
      items := items + [AssembleItem(people[i], sk[i], lsi[i], username[i])];
    }
  }

}

=== FILE: table.dfy ===
/**
 * The single DynamoDB table 'PandoraDetails' as the serving code sees it:
 * a sequence of items, each with a partition key `pk`, a sort key `sk`,
 * an optional `lsi` (the sort key of the local secondary index
 * 'user-id-index'; items without it are not in the index) and its other
 * attributes. A query selects the items of one partition whose sort key
 * (of the table or of the index) satisfies a condition, reads them in
 * table order one page at a time, and drops the items a filter rejects.
 * The store keeps a partition ordered by sort key; `PartitionInSkOrder`
 * states that of a table, and lemmas that need the order assume it.
 */
module Table {
  import opened Wrappers
  import opened Text

  /** The attributes the people loader writes on a person item. */
  datatype Person = Person(
    index: nat,           // internal index, the target of friend references
    userId: string,       // the external id (`_id` in the input file)
    fullname: string,
    username: string,
    age: int,
    address: string,
    phone: string,
    email: string,
    eyeColor: string,
    hasDied: bool,
    fruits: seq<string>,
    vegetables: seq<string>,
    friends: seq<nat>,    // internal indices of the person's friends
    companyId: nat)

  /** Non-key attributes: a company's `metadata` map, or a person's attributes. */
  datatype Attributes = Metadata(name: string) | PersonAttributes(person: Person)

  datatype Row = Row(pk: string, sk: string, lsi: Option<string>, attributes: Attributes)

  /** How many items the store evaluates for one page (DynamoDB's 1 MB read limit). */
  type PageSize = n: nat | 0 < n witness 1

  /** The table; `reachable == false` models a store whose every request raises. */
  datatype Store = Store(rows: seq<Row>, pageSize: PageSize, reachable: bool)

  /** Which sort key a key condition constrains: the table's `sk` or the index's `lsi`. */
  datatype SortKey = TableSortKey | IndexSortKey

  datatype SortCondition = Equals(value: string) | BeginsWith(prefix: string) | AnyValue

  /** `Key('pk').eq(pk) & <sort condition>`. */
  datatype KeyCondition = KeyCondition(pk: string, on: SortKey, sort: SortCondition)

  /** The continuation key of a page: how many matching items have been evaluated. */
  datatype Token = Token(offset: nat)

  /** A query: key condition, optional `Attr('index').is_in(...)` filter, optional `ExclusiveStartKey`. */
  datatype Query = Query(key: KeyCondition, indexIn: Option<set<nat>>, exclusiveStartKey: Option<Token>)

  /** A query response: `Items` (its length is `Count`) and `LastEvaluatedKey`. */
  datatype Page = Page(items: seq<Row>, lastEvaluatedKey: Option<Token>)

  /** The exception a request raises. */
  datatype Failure =
    | StoreUnavailable
    | InvalidFilter   // the store's validation error for a filter `index IN ()` with no values

  datatype Result<T> = Ok(value: T) | Raised(failure: Failure)

  function SortValue(row: Row, on: SortKey): Option<string>
  {
    match on
    case TableSortKey => Some(row.sk)
    case IndexSortKey => row.lsi
  }

  predicate Satisfies(v: string, c: SortCondition)
  {
    match c
    case Equals(w) => v == w
    case BeginsWith(p) => StartsWith(v, p)
    case AnyValue => true
  }

  predicate KeyMatches(row: Row, key: KeyCondition)
  {
    row.pk == key.pk && SortValue(row, key.on).Some? && Satisfies(SortValue(row, key.on).value, key.sort)
  }

  /** The items a key condition selects, in table order. */
  function Candidates(rows: seq<Row>, key: KeyCondition): (c: seq<Row>)
    ensures |c| <= |rows|
  {
    if rows == [] then []
    else (if KeyMatches(rows[0], key) then [rows[0]] else []) + Candidates(rows[1..], key)
  }

  /** A key condition selects exactly the table's items that match it. */
  lemma {:induction false} CandidatesMembership(rows: seq<Row>, key: KeyCondition)
    ensures forall row :: row in Candidates(rows, key) <==> row in rows && KeyMatches(row, key)
  {
    if rows != [] {
      CandidatesMembership(rows[1..], key);
      assert rows == [rows[0]] + rows[1..];
    }
  }

  predicate PassesFilter(row: Row, indexIn: Option<set<nat>>)
  {
    indexIn.None? || (row.attributes.PersonAttributes? && row.attributes.person.index in indexIn.value)
  }

  function FilterRows(rows: seq<Row>, indexIn: Option<set<nat>>): (r: seq<Row>)
    ensures |r| <= |rows|
    ensures indexIn.None? ==> r == rows
  {
    if rows == [] then []
    else (if PassesFilter(rows[0], indexIn) then [rows[0]] else []) + FilterRows(rows[1..], indexIn)
  }

  /** The filter keeps exactly the items that pass it. */
  lemma {:induction false} FilterRowsMembership(rows: seq<Row>, indexIn: Option<set<nat>>)
    ensures forall row :: row in FilterRows(rows, indexIn) <==> row in rows && PassesFilter(row, indexIn)
  {
    if rows != [] {
      FilterRowsMembership(rows[1..], indexIn);
      assert rows == [rows[0]] + rows[1..];
    }
  }

  /** A filter on an empty id set keeps nothing. */
  lemma {:induction false} FilterRowsOfNoIds(rows: seq<Row>)
    ensures FilterRows(rows, Some({})) == []
  {
    if rows != [] {
      FilterRowsOfNoIds(rows[1..]);
    }
  }

  /** Filtering two stretches of items one after the other is filtering them together. */
  lemma {:induction false} FilterRowsConcat(a: seq<Row>, b: seq<Row>, indexIn: Option<set<nat>>)
    ensures FilterRows(a + b, indexIn) == FilterRows(a, indexIn) + FilterRows(b, indexIn)
  {
    if a != [] {
      assert (a + b)[1..] == a[1..] + b;
      FilterRowsConcat(a[1..], b, indexIn);
    } else {
      assert a + b == b;
    }
  }

  function Min(a: nat, b: nat): nat
  {
    if a <= b then a else b
  }

  /** Where a query resumes among its candidates. */
  function StartOffset(q: Query, available: nat): (o: nat)
    ensures o <= available
  {
    if q.exclusiveStartKey.Some? then Min(q.exclusiveStartKey.value.offset, available) else 0
  }

  /**
   * One page of a query: the store evaluates up to `pageSize` candidates
   * after the start key, returns those that pass the filter, and hands
   * back a continuation key exactly when candidates remain.
   */
  function QueryPage(s: Store, q: Query): (r: Result<Page>)
    ensures r.Raised? <==> !s.reachable || q.indexIn == Some({})
    ensures r.Raised? && s.reachable ==> r.failure == InvalidFilter
    ensures r.Ok? ==> var c := Candidates(s.rows, q.key); var lo := StartOffset(q, |c|);
      && (r.value.lastEvaluatedKey.Some? <==> lo + s.pageSize < |c|)
      && (r.value.lastEvaluatedKey.Some? ==> r.value.lastEvaluatedKey.value.offset == lo + s.pageSize)
      && r.value.items == FilterRows(c[lo..Min(lo + s.pageSize, |c|)], q.indexIn)
    ensures r.Ok? && q.exclusiveStartKey.None? && q.indexIn.None? ==>
      var c := Candidates(s.rows, q.key);
      && (r.value.items == [] <==> c == [])
      && (r.value.items != [] ==> r.value.items[0] == c[0])
  {
    if !s.reachable then Raised(StoreUnavailable)
    else if q.indexIn == Some({}) then Raised(InvalidFilter)
    else
      var c := Candidates(s.rows, q.key);
      var lo := StartOffset(q, |c|);
      var hi := Min(lo + s.pageSize, |c|);
      Ok(Page(FilterRows(c[lo..hi], q.indexIn), if hi < |c| then Some(Token(hi)) else None))
  }

  /** Every item of a page is an item of the table that matches the key and passes the filter. */
  lemma QueryPageItems(s: Store, q: Query)
    requires s.reachable && q.indexIn != Some({})
    ensures forall row :: row in QueryPage(s, q).value.items ==>
      row in s.rows && KeyMatches(row, q.key) && PassesFilter(row, q.indexIn)
  {
    var c := Candidates(s.rows, q.key);
    var lo := StartOffset(q, |c|);
    var hi := Min(lo + s.pageSize, |c|);
    assert QueryPage(s, q).value.items == FilterRows(c[lo..hi], q.indexIn);
    CandidatesMembership(s.rows, q.key);
    FilterRowsMembership(c[lo..hi], q.indexIn);
    forall row | row in QueryPage(s, q).value.items
      ensures row in s.rows && KeyMatches(row, q.key) && PassesFilter(row, q.indexIn)
    {
      assert row in c[lo..hi];
      assert row in c;
    }
  }

  /**
   * Reading on from a page's start is this page's items followed by what
   * is read from the page's end.
   */
  lemma QueryPageSplit(s: Store, q: Query)
    requires s.reachable && q.indexIn != Some({})
    ensures var c := Candidates(s.rows, q.key);
      var lo := StartOffset(q, |c|);
      var hi := Min(lo + s.pageSize, |c|);
      FilterRows(c[lo..], q.indexIn) == QueryPage(s, q).value.items + FilterRows(c[hi..], q.indexIn)
  {
    var c := Candidates(s.rows, q.key);
    var lo := StartOffset(q, |c|);
    var hi := Min(lo + s.pageSize, |c|);
    var page, rest := c[lo..hi], c[hi..];
    calc {
      FilterRows(c[lo..], q.indexIn);
      { SliceSplit(c, lo, hi); }
      FilterRows(page + rest, q.indexIn);
      { FilterRowsConcat(page, rest, q.indexIn); }
      FilterRows(page, q.indexIn) + FilterRows(rest, q.indexIn);
      { assert QueryPage(s, q).Ok?; }
      QueryPage(s, q).value.items + FilterRows(rest, q.indexIn);
    }
  }

  /**
   * Filtering a stretch of items from `lo` on gives the filtered items up
   * to `hi` followed by the filtered items after it.
   */
  lemma FilterRowsSplitAt(c: seq<Row>, lo: nat, hi: nat, indexIn: Option<set<nat>>)
    requires lo <= hi <= |c|
    ensures FilterRows(c[lo..], indexIn) == FilterRows(c[lo..hi], indexIn) + FilterRows(c[hi..], indexIn)
  {
    SliceSplit(c, lo, hi);
    FilterRowsConcat(c[lo..hi], c[hi..], indexIn);
  }

  /**
   * A stretch of items from `lo` on is the stretch up to `hi` followed by
   * the rest; kept as a lemma so that proofs which use it do not repeat
   * the sequence-extensionality reasoning.
   */
  lemma SliceSplit(c: seq<Row>, lo: nat, hi: nat)
    requires lo <= hi <= |c|
    ensures c[lo..] == c[lo..hi] + c[hi..]
  {
  }

  // ---------------------------------------------------------------------
  // Sort-key order

  /**
   * `a` sorts no later than `b` in the store's order of string keys: by
   * code point, a proper prefix first (code point order is the order of
   * the UTF-8 bytes the store compares).
   */
  predicate SkLe(a: string, b: string)
  {
    a == [] || (b != [] && (a[0] < b[0] || (a[0] == b[0] && SkLe(a[1..], b[1..]))))
  }

  lemma {:induction false} SkLeReflexive(a: string)
    ensures SkLe(a, a)
  {
    if a != [] {
      SkLeReflexive(a[1..]);
    }
  }

  /**
   * Two keys that agree up to position k, where `a` has '#' and `b` a
   * digit: `b` sorts strictly after `a`, since '#' comes before every digit.
   */
  lemma {:induction false} HashSortsBeforeDigit(a: string, b: string, k: nat)
    requires k < |a| && k < |b| && a[..k] == b[..k]
    requires a[k] == '#' && IsDigit(b[k])
    ensures !SkLe(b, a)
  {
    if k > 0 {
      assert a[0] == a[..k][0] == b[..k][0] == b[0];
      assert a[1..][..k - 1] == a[..k][1..] == b[..k][1..] == b[1..][..k - 1];
      HashSortsBeforeDigit(a[1..], b[1..], k - 1);
    }
  }

  /** The items of partition `pk` appear in sort-key order. */
  predicate PartitionInSkOrder(rows: seq<Row>, pk: string)
  {
    forall i, j :: 0 <= i < j < |rows| && rows[i].pk == pk && rows[j].pk == pk ==> SkLe(rows[i].sk, rows[j].sk)
  }

  /** In a partition kept in sort-key order, a table query's first item has the least sort key of all it selects. */
  lemma {:induction false} FirstCandidateIsLeast(rows: seq<Row>, key: KeyCondition)
    requires PartitionInSkOrder(rows, key.pk)
    ensures forall row :: row in Candidates(rows, key) ==> SkLe(Candidates(rows, key)[0].sk, row.sk)
  {
    if rows != [] {
      var tail := rows[1..];
      assert PartitionInSkOrder(tail, key.pk) by {
        forall i, j | 0 <= i < j < |tail| && tail[i].pk == key.pk && tail[j].pk == key.pk
          ensures SkLe(tail[i].sk, tail[j].sk)
        {
          assert tail[i] == rows[i + 1] && tail[j] == rows[j + 1];
        }
      }
      FirstCandidateIsLeast(tail, key);
      if KeyMatches(rows[0], key) {
        CandidatesMembership(tail, key);
        forall row | row in Candidates(rows, key)
          ensures SkLe(rows[0].sk, row.sk)
        {
          if row == rows[0] {
            SkLeReflexive(row.sk);
          } else {
            assert row in tail;
            var j :| 0 <= j < |tail| && tail[j] == row;
            assert rows[j + 1] == row;
          }
        }
      }
    }
  }
}

=== FILE: text.dfy ===
/**
 * The few Python string operations the key encoding is built from:
 * `str()` of a bool and of a non-negative int, ASCII `lower()`,
 * `split(' ')[0]` and `startswith` (DynamoDB's `begins_with`).
 */
module Text {

  /** `s` begins with `p` (DynamoDB's `begins_with`, Python's `startswith`). */
  predicate StartsWith(s: string, p: string)
  {
    |p| <= |s| && s[..|p|] == p
  }

  /** Python's `str(b)` for a bool. */
  function BoolStr(b: bool): (s: string)
    ensures s == "True" || s == "False"
    ensures '#' !in s
    ensures (s == "True") == b
  {
    if b then "True" else "False"
  }

  predicate IsDigit(c: char)
  {
    '0' <= c <= '9'
  }

  function DigitChar(d: nat): (c: char)
    requires d < 10
    ensures IsDigit(c)
    ensures c as int - '0' as int == d
  {
    ('0' as int + d) as char
  }

  /** Python's `str(n)` for a non-negative int: its decimal digits. */
  function NatToString(n: nat): (s: string)
    ensures |s| >= 1
    ensures forall i :: 0 <= i < |s| ==> IsDigit(s[i])
    ensures n < 10 <==> |s| == 1
  {
    if n < 10 then [DigitChar(n)] else NatToString(n / 10) + [DigitChar(n % 10)]
  }

  /** Different numbers print differently, so a decimal id names one number. */
  lemma {:induction false} NatToStringInjective(a: nat, b: nat)
    requires NatToString(a) == NatToString(b)
    ensures a == b
  {
    var s := NatToString(a);
    if a < 10 {
      assert s[0] == DigitChar(a) && NatToString(b)[0] == DigitChar(b);
    } else {
      assert b >= 10;
      assert s == NatToString(a / 10) + [DigitChar(a % 10)];
      assert s == NatToString(b / 10) + [DigitChar(b % 10)];
      assert NatToString(a / 10) == s[..|s| - 1] == NatToString(b / 10);
      assert DigitChar(a % 10) == s[|s| - 1] == DigitChar(b % 10);
      NatToStringInjective(a / 10, b / 10);
    }
  }

  /**
   * The decimal id followed by '#' is an exact-match prefix: the text
   * `str(a) + "#" + rest` begins with `str(c) + "#"` exactly when a == c.
   */
  lemma IdHashPrefixExact(a: nat, c: nat, rest: string)
    ensures StartsWith(NatToString(a) + "#" + rest, NatToString(c) + "#") <==> a == c
  {
    var A, C := NatToString(a), NatToString(c);
    var s := A + "#" + rest;
    if |C| < |A| {
      // the next character is a digit of str(a), not '#'
      assert s[|C|] == A[|C|] != '#' == (C + "#")[|C|];
    } else if |C| > |A| {
      // str(a) ends where str(c) still has a digit
      assert s[|A|] == '#' != C[|A|] == (C + "#")[|A|];
    } else if StartsWith(s, C + "#") {
      assert A == s[..|A|] == C;
      NatToStringInjective(a, c);
    }
  }

  /**
   * Without the '#', another id's text can begin with `str(c)` only by
   * running on: when `str(a) + "#" + rest` begins with `str(c)` and a != c,
   * `str(c)` is the shorter and a digit of `str(a)` comes right after it.
   */
  lemma IdPrefixWithoutHash(a: nat, c: nat, rest: string)
    requires StartsWith(NatToString(a) + "#" + rest, NatToString(c)) && a != c
    ensures |NatToString(c)| < |NatToString(a)|
    ensures IsDigit((NatToString(a) + "#" + rest)[|NatToString(c)|])
  {
    var A, C := NatToString(a), NatToString(c);
    var s := A + "#" + rest;
    if |C| == |A| {
      assert A == s[..|A|] == C;
      NatToStringInjective(a, c);
      assert false;
    } else if |C| > |A| {
      // a longer str(c) would need a digit where str(a) is followed by '#'
      StartsWithAt(s, C, |A|);
      assert false;
    }
    assert s[|C|] == A[|C|];
  }

  /** When `a` ends with '#', the last `|u| + 1` characters of `a + u` are "#" followed by `u`. */
  lemma HashThenSuffix(a: string, u: string)
    requires |a| >= 1 && a[|a| - 1] == '#'
    ensures (a + u)[|a + u| - |u| - 1..] == "#" + u
  {
    assert (a + u)[|a| - 1..] == [a[|a| - 1]] + u;
  }

  /** A text that begins with `p` agrees with `p` at each position of `p`. */
  lemma StartsWithAt(s: string, p: string, i: nat)
    requires StartsWith(s, p) && i < |p|
    ensures s[i] == p[i]
  {
    assert s[..|p|][i] == s[i];
  }

  /** A text that begins with `p` is `p` followed by the rest. */
  lemma StartsWithSplit(s: string, p: string)
    requires StartsWith(s, p)
    ensures s == p + s[|p|..]
  {
    assert s == s[..|p|] + s[|p|..];
  }

  /** `p + rest` begins with `p`, and what follows `p` is `rest`. */
  lemma PrefixOfConcat(p: string, rest: string)
    ensures StartsWith(p + rest, p)
    ensures (p + rest)[|p|..] == rest
  {
    assert (p + rest)[..|p|] == p;
  }

  /** ASCII `lower()`: upper-case letters A-Z become a-z, everything else is kept. */
  function Lower(s: string): (r: string)
    ensures |r| == |s|
    ensures forall i :: 0 <= i < |s| ==> r[i] == if 'A' <= s[i] <= 'Z' then (s[i] as int + 32) as char else s[i]
  {
    if s == [] then []
    else [if 'A' <= s[0] <= 'Z' then (s[0] as int + 32) as char else s[0]] + Lower(s[1..])
  }

  /**
   * `name.split(' ')[0]`: the text before the first space, or the whole
   * text when it has no space.
   */
  function FirstToken(name: string): (u: string)
    ensures StartsWith(name, u)
    ensures ' ' !in u
    ensures u == name || StartsWith(name, u + " ")
  {
    if name == [] || name[0] == ' ' then []
    else [name[0]] + FirstToken(name[1..])
  }
}

=== FILE: wrappers.dfy ===
/** The optional value used throughout the model (Python's None / a present value). */
module Wrappers {

  datatype Option<+T> = None | Some(value: T)
}
